=== FILE: README.md ===
# Battleship server: the game registry and the client protocol in Dafny

This project models the core of a multi-player battleship server. Every
player has one ship of five cells on a shared 10 x 10 board. Players
connect over TCP and register with `REG <name> <x> <y> <direction>`, where the direction is `-` or a vertical bar. After that
they bomb cells with `BOMB <x> <y>`. Every hit, miss, join and loss is
broadcast to the registered players.

The model covers:

- the shared registry (`GameState`, `Player`, `Ship` of `server.h`), kept
  as one immutable value of 100 slots plus `player_count`;
- every operation of `game_logic.c`, as a pure function from one registry
  to the next, together with an ordered outbox of effects:
  - `Send(slot, msg)`: a line written to that slot's socket;
  - `Close(slot, fd)`: that slot's socket is closed;
- the per-connection thread `handle_client`:
  - the byte-at-a-time line reassembly and the 100-byte cutoff (`Framer`);
  - the `REG` / `BOMB` / other dispatch and the direct replies
    `WELCOME`, `TAKEN`, `INVALID` (`Session`).

A failing `send` is an explicit input, `failing: set<(slot, message)>`. The
delivery of message `m` to slot `k` fails exactly when `(k, m)` is in the
set. The failure paths of `broadcast_message` (close, evict, decrement)
are therefore modelled rather than assumed away.

The `sscanf` calls of `handle_registration` and `handle_bomb` are a
parameter, `Session.Scanner`. It maps a line to the scanned fields, or
`None` when the pattern does not match. The fields carry the types the
scan can yield:

- a name token of 1 to 20 bytes with no NUL and no white space;
- 32-bit coordinates;
- one direction byte.

The invariant every operation keeps is `State.Valid`:

- `player_count` equals the number of active slots;
- every ship's `total_damage` is the number of its damaged cells;
- every active slot holds a real socket;
- every registered slot's ship is validly placed and owned under the
  slot's name;
- no two players in play share a name.

Modules follow the program:

- `Defs`: the constants of `server.h`.
- `Geometry`: placement and ship cells.
- `State`: records, invariant, retirement.
- `Broadcast`: `broadcast_message`.
- `Registry`: add, remove, name check, registration.
- `Combat`: damage, destruction sweep, `handle_bomb`.
- `Framer`: line reassembly.
- `Session`: `handle_client`.
- `Scenarios`: concrete exchanges of the protocol.

In these points the code behaves differently from what a reader of the
protocol might expect, and the model follows the code:

- `remove_player` sends the leaver's `GG` to everybody except the leaving
  socket (`RemovePlayerSilentToLeaver`).
- The `JOIN` after a successful registration goes to every registered
  player, the newcomer included (`JoinAnnounced`).
- A `REG` line whose name is taken answers `TAKEN` even when its placement
  is invalid, because the name is checked first (`BobTooCloseToEdge`).
- A terminated line longer than 100 bytes cannot occur. The reader
  disconnects as soon as 100 bytes have piled up without a `'\n'`, so the
  `message_length > MAX_MESSAGE_LENGTH` branch of
  `assignment4/client_handler.c:39-43` is dead code (`Framer.FrameFrom`,
  `FrameOverlong`).

## Model

| member | source | states |
|---|---|---|
| State.InitGameState | assignment4/game_logic.c:3-16 | The fresh registry satisfies the invariant. No slot is active or registered, and every socket is -1. |
| State.Retire | assignment4/game_logic.c:89-91 | Evicting a slot and decrementing player_count keeps the count in step when the slot was active. It puts the count one below the active slots when the slot was already inactive. |
| State.RetiringKeepsValid | assignment4/game_logic.c:85-92 | An operation that only clears active/registered flags and sets damage flags keeps the invariant, provided the count stays in step. Unique names and placement carry over. |
| State.DamageBounded | assignment4/game_logic.c:227-229 | Under the invariant every ship's total_damage lies between 0 and 5, because it counts the set flags among five. |
| Geometry.PlacementExact | assignment4/game_logic.c:99-113 | A placement is accepted iff the direction is `-` (horizontal) or the vertical bar and all five cells of the ship lie on the 10 x 10 board. |
| Geometry.IsValidShipPlacement | assignment4/game_logic.c:99-113 | The placement check itself. Its contract is `Geometry.PlacementExact`: accepted iff the direction is `-` or the vertical bar and all five cells lie on the board. |
| Geometry.CellIndex | assignment4/game_logic.c:205-225 | It returns the cell of the ship that the bomb point matches. It is None exactly when no cell of the five matches. |
| Geometry.OffBoardNeverMatches | assignment4/game_logic.c:186-187 | A bomb off the board never matches a cell of a validly placed ship. |
| Broadcast.BroadcastMessage | assignment4/game_logic.c:77-97 | Every slot ends as its own send leaves it: a recipient whose send fails is evicted, and every other slot is unchanged. player_count stays in step with the active slots. Its outbox is stated by `Broadcast.BroadcastOutbox`. |
| Broadcast.BroadcastFrom | assignment4/game_logic.c:80-94 | Slots before the loop index are untouched. Each later recipient whose send fails is evicted, and every other slot is left as it was. player_count follows the evictions. |
| Broadcast.BroadcastOutbox | assignment4/game_logic.c:77-97 | The outbox has one entry per recipient (active, registered, socket not excluded), in ascending slot order. The entry is the line if the send succeeds and the close of that socket if it fails. With no failure the state is unchanged and the outbox is the plain fan-out. |
| Broadcast.BroadcastKeepsValid | assignment4/game_logic.c:85-92 | A broadcast only retires slots and keeps the registry invariant. |
| Broadcast.FanoutFromReaches | assignment4/game_logic.c:81-85 | With no failure, slot k receives the line iff it is active, registered and its socket is not the excluded one. |
| Registry.FindInactiveFrom | assignment4/game_logic.c:24-31 | The result is the lowest inactive slot at or after i. It is -1 exactly when every such slot is active. |
| Registry.AddPlayer | assignment4/game_logic.c:21-45 | It returns -1 with nothing changed iff every slot is active. Otherwise the lowest inactive slot becomes active and unregistered with the new socket, the count grows by one, and no other slot changes. |
| Registry.AddPlayerKeepsValid | assignment4/game_logic.c:38-41 | Admission keeps the registry invariant. |
| Registry.AddPlayerFullIff | assignment4/game_logic.c:33-36 | Under the invariant, admission is refused exactly when player_count has reached MAX_CLIENTS. |
| Registry.FindActiveFd | assignment4/game_logic.c:50-51 | The result is the first active slot holding the socket. It is None exactly when no active slot holds it. |
| Registry.Leave | assignment4/game_logic.c:47-75 | The steps of remove_player. It carries no contract of its own; `Registry.RemovePlayer` states what they achieve. |
| Registry.RemovePlayer | assignment4/game_logic.c:47-75 | The first active holder of the socket is evicted and its socket closed, as the last effect. If it was unregistered nothing else happens. If it was registered, every other slot ends as the `GG <name>` broadcast (excluding the leaving socket) leaves it: only slots whose send failed are evicted. With no send failure the outbox is exactly that fan-out followed by the close. No ship changes and the count stays in step. With no holder it is a no-op. |
| Registry.RemovePlayerKeepsValid | assignment4/game_logic.c:58-66 | Removal keeps the registry invariant. |
| Registry.RemovePlayerAnnounces | assignment4/game_logic.c:52-56 | A registered leaver's `GG <name>` reaches every other player in play on a different socket whose send succeeds. It never reaches the leaving slot. |
| Registry.RemovePlayerSilentToLeaver | assignment4/game_logic.c:56 | remove_player writes nothing to any slot that holds the socket being removed. |
| Registry.RemovePlayerIdempotent | assignment4/game_logic.c:50-72 | When at most one active slot holds the socket, removing it a second time does nothing. |
| Registry.AddThenRemove | assignment4/game_logic.c:21-75 | Admitting a fresh socket and removing it again restores the set of active slots and player_count. The only effect is the close of that socket. |
| Registry.NameTakenFrom | assignment4/game_logic.c:116-123 | The scan from slot i is true iff some slot at or after i, other than the excluded one, is active, registered and holds exactly that name. |
| Registry.IsNameTaken | assignment4/game_logic.c:115-124 | A name is taken iff another slot in play holds it. Names of removed players are free again. |
| Registry.HandleRegistration | assignment4/game_logic.c:126-176 | TAKEN iff the scan succeeds, the name bytes are valid and another player in play holds the name. WELCOME iff the scan succeeds, the name is valid and free, and the placement is valid. Otherwise INVALID. Only WELCOME changes the registry: exactly the caller's slot gets the name, the ship with owner and no damage, and the registered flag. |
| Registry.HandleRegistrationKeepsValid | assignment4/game_logic.c:157-171 | Registration keeps the registry invariant, unique names included. |
| Combat.DamageAt | assignment4/game_logic.c:224-229 | Damaging a fresh cell sets exactly the flag of the cell at the bomb point and raises total_damage by one. It keeps damage count and flags consistent. |
| Combat.DamageFrom | assignment4/game_logic.c:200-248 | The damage loop from slot i. It carries no contract of its own; `Combat.DamageFromFrame`, `Combat.DamageReached`, `Combat.HitsDelivered` and `Combat.DamageFromNoFailure` state what it does. |
| Combat.DamageFromFrame | assignment4/game_logic.c:200-248 | Slots only retire and damage flags are only newly set on the bombed cell. The count stays in step. Without a fresh target (and no earlier hit) the loop is exactly the MISS broadcast. Whatever else fails, a slot that every send reaches stays in play and ends exactly as the failure-free bomb leaves it: the bombed cell damaged if it was a fresh target at or after slot i, otherwise unchanged. |
| Combat.DamageReached | assignment4/game_logic.c:200-248 | Per slot, for any failure set: only a recipient whose own send failed is evicted (lines 85-91), so a slot every send reaches keeps its connection and takes exactly the bomb's damage. |
| Combat.DamageShipsAtCell | assignment4/game_logic.c:195-251 | A bomb only retires slots and damages the bombed cell. If no ship in play has an undamaged cell there, it is exactly one MISS broadcast. For any failure set, every slot that every send reaches is still in play afterwards and a fresh target among them gets exactly the bombed cell damaged. |
| Combat.HitsDelivered | assignment4/game_logic.c:231-235 | For any failure set, the `HIT` for a fresh target that every send reaches is delivered to every player in play that every send reaches. |
| Combat.DamageKeepsValid | assignment4/game_logic.c:195-251 | A bomb's damage pass keeps the registry invariant. |
| Combat.OffBoardIsMiss | assignment4/game_logic.c:186-189 | Under the invariant, a bomb off the board damages nothing and is exactly one MISS broadcast. |
| Combat.DamageFromNoMiss | assignment4/game_logic.c:243-248 | Once some ship in play has an undamaged cell at the point, every line sent is a HIT by the attacker at that point. No MISS is sent. |
| Combat.DamageFromHitsOwners | assignment4/game_logic.c:231-235 | Every HIT names the owner of a ship that was in play and had an undamaged cell at the point when the bomb fell. |
| Combat.DamageFromNoFailure | assignment4/game_logic.c:200-248 | With no send failure, exactly the fresh targets are damaged and the count is unchanged. The outbox is one HIT fan-out per fresh target in slot order, or one MISS fan-out when nothing was hit. |
| Combat.DamageOutcome | assignment4/game_logic.c:195-251 | The previous three facts stated for the whole bomb from slot 0. |
| Combat.SweepFrom | assignment4/game_logic.c:256-276 | The corrected sweep from slot i. It carries no contract of its own; `Combat.SweepFromFrame`, `Combat.SweepReached`, `Combat.GGsDelivered`, `Combat.SweepFromNoFailureState` and `Combat.SweepFromNoFailureOut` state what it does. |
| Combat.SweepFromFrame | assignment4/game_logic.c:256-276 | The sweep from slot i (corrected; see Findings) leaves no ship in play fully damaged. It changes no ship, only retires slots, and keeps the count in step. For any failure set, a slot every send reaches is retired iff its ship is destroyed, and is otherwise unchanged. |
| Combat.SweepReached | assignment4/game_logic.c:256-276 | Per slot, for any failure set: a `GG` broadcast evicts only recipients whose own send failed, so a slot every send reaches ends retired if its ship was destroyed and untouched otherwise. |
| Combat.CheckShipDestruction | assignment4/game_logic.c:253-279 | After the sweep no player in play has a destroyed ship. Ships are unchanged and player_count still counts the active slots. For any failure set, every slot that every send reaches is retired exactly when its ship is destroyed, and otherwise left as it was. |
| Combat.GGsDelivered | assignment4/game_logic.c:264-268 | For any failure set, the `GG <owner>` of a destroyed ship whose owner every send reaches is delivered to every player in play that every send reaches, unless that player was itself retired for a destroyed ship in an earlier slot. |
| Combat.CheckShipDestructionKeepsValid | assignment4/game_logic.c:253-279 | The corrected sweep keeps the registry invariant. |
| Combat.SweepQuiet | assignment4/game_logic.c:256-264 | With no destroyed ship in play the sweep changes nothing and sends nothing. |
| Combat.SweepFromNoFailureState | assignment4/game_logic.c:256-276 | With no send failure the sweep evicts exactly the players whose ship is destroyed and leaves every other slot as it was. |
| Combat.SweepFromNoFailureOut | assignment4/game_logic.c:264-274 | With no send failure every player whose ship is destroyed receives its own `GG`, and its socket is closed, after that `GG`. Every player in play receives the `GG <owner>` of every destroyed ship, unless it was itself retired for a destroyed ship in an earlier slot; so a destroyed player also hears the `GG` of every destroyed ship in a later slot. The outbox holds nothing else: every entry is such a `GG` or the close of a destroyed player's socket. |
| Combat.SweepFromNoFailureLines | assignment4/game_logic.c:264-274 | With no send failure every entry of the sweep's outbox is the close of a destroyed player's socket, or the `GG` of a destroyed ship in slot k sent to a player in play that was not retired for its own destroyed ship before slot k. |
| Combat.GGBeforeClose | assignment4/game_logic.c:264-274 | With no send failure, the close of a destroyed player's socket comes after that player's own `GG` in the outbox. |
| Combat.SweepFromAsWritten | assignment4/game_logic.c:256-276 | The sweep as the source writes it only retires slots and keeps ships, but can only push player_count down relative to the active slots. |
| Combat.CheckShipDestructionAsWritten | assignment4/game_logic.c:253-279 | The source's sweep only retires slots and keeps every ship, but player_count can only fall relative to the active slots. |
| Combat.AsWrittenDoubleCount | assignment4/game_logic.c:264-274 | If the first destroyed player's own GG send fails, the source's sweep leaves player_count below the number of active slots, breaking the invariant. |
| Combat.DoubleCountExample | assignment4/game_logic.c:264-274 | For a concrete registry (one player "A" with a destroyed ship, its GG send failing), the as-written sweep breaks the invariant and the corrected one keeps it. |
| Combat.HandleBomb | assignment4/game_logic.c:178-193 | It returns 1 iff the two numbers scan. On a failed scan nothing happens. Otherwise (with the corrected sweep of the Findings row) the bomb only retires slots and damages the bombed cell, keeps the count in step, and leaves no destroyed ship in play. For any failure set, a slot that every send reaches ends as the failure-free bomb leaves it: damaged if it was a fresh target, then retired iff its ship is now destroyed. |
| Combat.QuietBomb | assignment4/game_logic.c:186-190 | With no send failure, a bomb where no ship in play has an undamaged cell, on a board with no destroyed ship, changes nothing. It sends one MISS to every registered player. |
| Combat.HandleBombKeepsValid | assignment4/game_logic.c:178-193 | A BOMB, with the corrected sweep of the Findings row, keeps the registry invariant. |
| Framer.FrameFrom | assignment4/client_handler.c:21-99 | The lines handed on are complete (at most 100 bytes, ending in their only `'\n'`). On a close, lines plus the dropped partial buffer make up the whole stream. On an overlength cutoff, lines plus the 100 pending bytes are a prefix of it. |
| Framer.Frame | assignment4/client_handler.c:17-99 | The same account, for a whole connection starting with an empty buffer. |
| Framer.FrameCompleteLine | assignment4/client_handler.c:34-91 | A complete line at the head of the stream is handed on, and reading continues after it with an empty buffer. |
| Framer.FrameConcat | assignment4/client_handler.c:21-91 | Round trip: a stream made of complete lines frames back into exactly those lines, with nothing left over. |
| Framer.FrameOverlong | assignment4/client_handler.c:93-98 | 100 bytes without a `'\n'` cut the client off with no line handed on, whatever follows. |
| Framer.FramePartial | assignment4/client_handler.c:23-30 | A stream that ends before its first `'\n'` and below the limit hands on nothing. |
| Session.Dispatch | assignment4/client_handler.c:46-87 | The handling of one complete line. It carries no contract of its own; `Session.DispatchFrame`, `Session.DispatchReached`, `Session.DispatchTable`, `Session.RegistrationReplies` and `Session.JoinAnnounced` state what it does. |
| Session.DispatchFrame | assignment4/client_handler.c:46-87 | No line opens or changes a socket, and player_count stays in step with the active slots. |
| Session.DispatchReached | assignment4/client_handler.c:46-87 | For any failure set: a line that is not a BOMB leaves every other slot that every send reaches untouched. A registered player's BOMB that scans leaves each such slot as the failure-free bomb would: damaged if a fresh target, retired iff now destroyed. |
| Session.DispatchTable | assignment4/client_handler.c:48-87 | Reply table: an unknown command or a second REG gets INVALID and changes nothing. BOMB from an unregistered player gets nothing. A registered player's BOMB gets INVALID iff its numbers do not scan, and otherwise no reply. |
| Session.RegistrationReplies | assignment4/client_handler.c:48-67 | REG from an unregistered player: WELCOME iff the name is well formed and free and the ship fits. TAKEN iff the well-formed name is held by another player. INVALID otherwise. Only WELCOME changes anything. |
| Session.JoinAnnounced | assignment4/client_handler.c:52-60 | After WELCOME, the slot holds the scanned name and the scanned ship (owner, position, direction) with no damage, even if a failed JOIN send has since retired it. `JOIN <name>` reaches every active player that was registered or is the newcomer, when the send succeeds. No other line is sent. |
| Session.DispatchKeepsValid | assignment4/client_handler.c:46-87 | Every dispatched line keeps the registry invariant. |
| Session.RunLines | assignment4/client_handler.c:21-91 | Dispatching a run of lines opens no socket, changes none, and keeps the count in step. |
| Session.RunLinesKeepsValid | assignment4/client_handler.c:21-91 | A run of lines keeps the registry invariant. |
| Session.HandleClient | assignment4/client_handler.c:9-99 | A whole connection ends with the socket read at thread start removed. If only this slot held it, no active slot holds it afterwards. The count stays in step and no socket is opened. |
| Session.HandleClientKeepsValid | assignment4/client_handler.c:9-99 | A whole connection keeps the registry invariant. |
| Session.LineDispatched | assignment4/client_handler.c:34-91 | On a live connection, a complete line at the head of the stream is dispatched first, its reply ahead of its broadcasts. The connection then carries on from the state it leaves. |
| Session.RetiredStopsReading | assignment4/client_handler.c:23-30 | Once the connection's own slot has been retired (a failed send or a destroyed ship closed its socket), the next read fails. No further line is dispatched and only remove_player runs; when the slot was the socket's sole holder, nothing happens at all. |
| Session.OverlongDisconnects | assignment4/client_handler.c:93-98 | 100 bytes without a `'\n'` lead to nothing but remove_player. For a never-registered sole holder, the only effect is the close of its socket. |
| Session.PartialNeverDispatched | assignment4/client_handler.c:25-30 | A connection that closes before its first `'\n'` never has a line dispatched: only remove_player runs. |
| Scenarios.WelcomeThenTaken | assignment4/game_logic.c:146-149 | `REG Ann1 4 4 -` is welcomed. Then the same name with a vertical ship, from another unregistered connection is answered TAKEN. |
| Scenarios.BobTooCloseToEdge | assignment4/game_logic.c:146-154 | `REG Bob 1 0 -` is INVALID iff the name is free and TAKEN iff it is held. It changes nothing. |
| Scenarios.MissSeenByAll | assignment4/game_logic.c:243-248 | `BOMB 0 0` on empty water: no reply, no change, and one MISS to every registered player, the attacker included. |
| Scenarios.LongLineNoReply | assignment4/client_handler.c:93-98 | A 101-byte line with no terminator removes the connection and writes nothing back to it. |

## Findings

| source | as written | input that shows it | evidently intended | confidence | as-written member | corrected member |
|---|---|---|---|---|---|---|
| assignment4/game_logic.c:264-274 | Premise: the nested locking of the registry mutex (`broadcast_message` at line 78 re-locks the default, non-recursive mutex already held from line 254) is read as re-entrant, as in the rest of the model; taken literally, that re-lock blocks the thread before the sweep's `GG` broadcast returns (and already in `damage_ships_at_cell`, line 196 then 78). Under that premise: after the `GG` broadcast for a destroyed ship, the slot is closed, evicted and `player_count` decremented unconditionally. If the `GG` send to the doomed player itself fails, `broadcast_message` has already closed, evicted and decremented that slot, so it is counted out twice and its socket closed twice. `SIGPIPE` is ignored, so the failed send does return -1. | One registered player "A" on socket 3 with all five cells damaged; a bomb sweep in which the `GG A` send to "A" fails. With the nested lock taken as re-entrant, `player_count` goes from 1 to -1 while no slot is active. | Retire and close the doomed slot only if the broadcast has not already done so, so that `player_count` keeps counting the active slots. | not executed | Combat.CheckShipDestructionAsWritten, Combat.AsWrittenDoubleCount, Combat.DoubleCountExample | Combat.CheckShipDestruction, Combat.CheckShipDestructionKeepsValid |

## Left out

- Mutexes and threads are not modelled. Each operation runs atomically to completion, and the connections' lines are applied one connection at a time. The unlocked `is_name_taken` check, and the unlocked reads of `is_registered` in `handle_client`, can race with other threads; that race is not modelled. The registry mutex is created with default attributes, and `damage_ships_at_cell`, `remove_player` and `check_ship_destruction` call `broadcast_message` while holding it, so `broadcast_message` locks it a second time. The model treats that nested call as if the lock were re-entrant.
- Sockets, `recv` and `send` are not modelled; effects appear in the outbox. A `send` failure is the explicit `failing` set, and one set serves a whole connection. The direct replies `WELCOME`, `TAKEN` and `INVALID` ignore their own send result, as the source does, so they always appear as `Send`.
- Socket numbers are opaque integers: the model does not capture the operating system reusing a closed descriptor. When the server closes a connection's socket, that connection's next read is taken to fail. A descriptor reused by a new connection in between is not modelled. The second `close` of the as-written sweep is recorded as an effect only.
- `sscanf` and `snprintf` are abstracted. The `Scanner` parameter stands for the scan, and messages are the `Msg` datatype, not formatted text. The `%20s` truncation and the acceptance of trailing text after the fields belong to the scanner, not to this model.
- `server.c` (listening, accepting, thread creation, the `add_player` call site), the `stderr` diagnostics and `cleanup_game_state` are not part of this model.
- Session.HandleClient: the `message_length > MAX_MESSAGE_LENGTH` branch of `assignment4/client_handler.c:39-43` is not modelled separately, because the buffer never exceeds the limit (the cutoff at line 94 fires first); `Framer.FrameFrom` records that bound in its precondition on the buffer.
- Combat.HandleBomb: composes the corrected sweep (`Combat.CheckShipDestruction`), so on the Findings input (the doomed player's own `GG` send fails) it keeps `player_count` in step where the source's `handle_bomb` (line 190, then lines 268-274) decrements twice; the source's path is modelled by `Combat.CheckShipDestructionAsWritten`. The same holds for every member built on it: `Session.Dispatch`, `Session.DispatchFrame`, `Session.DispatchKeepsValid`, `Session.RunLines`, `Session.RunLinesKeepsValid`, `Session.HandleClient` and `Session.HandleClientKeepsValid`.
- Combat.DamageReached: the per-slot frames (also `Combat.SweepReached`, and the matching clauses of `DamageFromFrame`, `DamageShipsAtCell`, `SweepFromFrame`, `CheckShipDestruction`, `HandleBomb` and `Session.DispatchReached`) assume that no send to the slot fails at all, not only the HIT, MISS or GG sends of this bomb; for a slot with some other failed send they promise only the general frame (slots only retire, damage only on the bombed cell).
- HandleBombKeepsValid: the registry invariant is preserved only with the corrected sweep; with the source's sweep it fails on the Findings input (`Combat.AsWrittenDoubleCount`, `Combat.DoubleCountExample`).
- Registry.AddPlayer: the socket is a natural number, because the only caller passes descriptors returned by a successful `accept`.
- A multi-bomb game between two players whose ships overlap on one cell is not written out as a concrete scenario. Each of its bombs is covered by the general lemmas on `HandleBomb`, `DamageOutcome` and the sweep.

=== FILE: broadcast.dfy ===
/** broadcast_message: write one line to every active, registered slot whose
    socket is not the excluded one, in ascending slot order; a slot whose
    send fails is closed and retired, and the loop carries on. */
module Broadcast {
  import opened Defs
  import opened State

  predicate IsRecipient(p: Player, exclude: int) {
    p.active && p.registered && p.fd != exclude
  }

  /** What a broadcast leaves in slot k. */
  function AfterSend(p: Player, k: nat, msg: Msg, exclude: int, failing: Failures): Player {
    if IsRecipient(p, exclude) && (k, msg) in failing then Evict(p) else p
  }

  /** No send to slot k fails, whatever the line. */
  predicate Reached(failing: Failures, k: nat) {
    forall e | e in failing :: e.0 != k
  }

  /** The lines a broadcast writes when no send fails: one per recipient, in
      slot order. */
  function FanoutFrom(s: Slots, msg: Msg, exclude: int, i: nat): seq<Effect>
    requires i <= MAX_CLIENTS
    decreases MAX_CLIENTS - i
  {
    if i == MAX_CLIENTS then []
    else if IsRecipient(s[i], exclude) then [Send(i, msg)] + FanoutFrom(s, msg, exclude, i + 1)
    else FanoutFrom(s, msg, exclude, i + 1)
  }

  function Fanout(s: Slots, msg: Msg, exclude: int): seq<Effect> {
    FanoutFrom(s, msg, exclude, 0)
  }

  /** The loop of broadcast_message from slot i on. */
  function BroadcastFrom(g: GameState, msg: Msg, exclude: int, failing: Failures, i: nat): (r: Step)
    requires i <= MAX_CLIENTS
    decreases MAX_CLIENTS - i
    ensures forall k | 0 <= k < i :: r.state.players[k] == g.players[k]
    ensures forall k | i <= k < MAX_CLIENTS :: r.state.players[k] == AfterSend(g.players[k], k, msg, exclude, failing)
    ensures Drift(r.state) == Drift(g)
  {
    if i == MAX_CLIENTS then Step(g, [])
    else
      var p := g.players[i];
      if IsRecipient(p, exclude) then
        if (i, msg) in failing then
          var rest := BroadcastFrom(Retire(g, i), msg, exclude, failing, i + 1);
          Step(rest.state, [Close(i, p.fd)] + rest.out)
        else
          var rest := BroadcastFrom(g, msg, exclude, failing, i + 1);
          Step(rest.state, [Send(i, msg)] + rest.out)
      else
        BroadcastFrom(g, msg, exclude, failing, i + 1)
  }

  /** Each outbox entry belongs to a recipient at or after slot i: the line
      itself when the send succeeds, the close of its socket when it fails. */
  predicate Delivery(g: GameState, msg: Msg, exclude: int, failing: Failures, e: Effect) {
    && e.slot < MAX_CLIENTS
    && IsRecipient(g.players[e.slot], exclude)
    && (e.Send? ==> e.msg == msg && (e.slot, msg) !in failing)
    && (e.Close? ==> (e.slot, msg) in failing && e.fd == g.players[e.slot].fd)
  }

  /** The entry a broadcast writes for recipient k. */
  function Expected(g: GameState, msg: Msg, failing: Failures, k: nat): Effect
    requires k < MAX_CLIENTS
  {
    if (k, msg) in failing then Close(k, g.players[k].fd) else Send(k, msg)
  }

  lemma {:induction false} BroadcastFromEntries(g: GameState, msg: Msg, exclude: int, failing: Failures, i: nat)
    requires i <= MAX_CLIENTS
    ensures forall n | 0 <= n < |BroadcastFrom(g, msg, exclude, failing, i).out| ::
      var e := BroadcastFrom(g, msg, exclude, failing, i).out[n];
      i <= e.slot && Delivery(g, msg, exclude, failing, e)
    decreases MAX_CLIENTS - i
  {
    if i < MAX_CLIENTS {
      if IsRecipient(g.players[i], exclude) && (i, msg) in failing {
        BroadcastFromEntries(Retire(g, i), msg, exclude, failing, i + 1);
      } else {
        BroadcastFromEntries(g, msg, exclude, failing, i + 1);
      }
    }
  }

  lemma {:induction false} BroadcastFromComplete(g: GameState, msg: Msg, exclude: int, failing: Failures, i: nat)
    requires i <= MAX_CLIENTS
    ensures forall k | i <= k < MAX_CLIENTS && IsRecipient(g.players[k], exclude) ::
      Expected(g, msg, failing, k) in BroadcastFrom(g, msg, exclude, failing, i).out
    decreases MAX_CLIENTS - i
  {
    if i < MAX_CLIENTS {
      if IsRecipient(g.players[i], exclude) && (i, msg) in failing {
        BroadcastFromComplete(Retire(g, i), msg, exclude, failing, i + 1);
      } else {
        BroadcastFromComplete(g, msg, exclude, failing, i + 1);
      }
    }
  }

  lemma {:induction false} BroadcastFromOrdered(g: GameState, msg: Msg, exclude: int, failing: Failures, i: nat)
    requires i <= MAX_CLIENTS
    ensures forall a, b | 0 <= a < b < |BroadcastFrom(g, msg, exclude, failing, i).out| ::
      BroadcastFrom(g, msg, exclude, failing, i).out[a].slot < BroadcastFrom(g, msg, exclude, failing, i).out[b].slot
    decreases MAX_CLIENTS - i
  {
    if i < MAX_CLIENTS {
      var g' := if IsRecipient(g.players[i], exclude) && (i, msg) in failing then Retire(g, i) else g;
      BroadcastFromOrdered(g', msg, exclude, failing, i + 1);
      BroadcastFromEntries(g', msg, exclude, failing, i + 1);
    }
  }

  lemma {:induction false} BroadcastFromNoFailure(g: GameState, msg: Msg, exclude: int, i: nat)
    requires i <= MAX_CLIENTS
    ensures BroadcastFrom(g, msg, exclude, {}, i) == Step(g, FanoutFrom(g.players, msg, exclude, i))
    decreases MAX_CLIENTS - i
  {
    if i < MAX_CLIENTS {
      BroadcastFromNoFailure(g, msg, exclude, i + 1);
    }
  }

  /** A whole broadcast: every slot is left as AfterSend describes and
      player_count follows the evictions. */
  function BroadcastMessage(g: GameState, msg: Msg, exclude: int, failing: Failures): (r: Step)
    ensures forall k | 0 <= k < MAX_CLIENTS :: r.state.players[k] == AfterSend(g.players[k], k, msg, exclude, failing)
    ensures Drift(r.state) == Drift(g)
  {
    BroadcastFrom(g, msg, exclude, failing, 0)
  }

  /** The outbox of a broadcast holds exactly one entry per recipient, in
      ascending slot order: the line, or the close of a socket whose send
      failed. Without failures the state is untouched and the outbox is the
      plain fan-out. */
  lemma BroadcastOutbox(g: GameState, msg: Msg, exclude: int, failing: Failures)
    ensures forall n | 0 <= n < |BroadcastMessage(g, msg, exclude, failing).out| ::
      Delivery(g, msg, exclude, failing, BroadcastMessage(g, msg, exclude, failing).out[n])
    ensures forall k | 0 <= k < MAX_CLIENTS && IsRecipient(g.players[k], exclude) ::
      Expected(g, msg, failing, k) in BroadcastMessage(g, msg, exclude, failing).out
    ensures forall a, b | 0 <= a < b < |BroadcastMessage(g, msg, exclude, failing).out| ::
      BroadcastMessage(g, msg, exclude, failing).out[a].slot < BroadcastMessage(g, msg, exclude, failing).out[b].slot
    ensures failing == {} ==> BroadcastMessage(g, msg, exclude, failing) == Step(g, Fanout(g.players, msg, exclude))
  {
    BroadcastFromEntries(g, msg, exclude, failing, 0);
    BroadcastFromComplete(g, msg, exclude, failing, 0);
    BroadcastFromOrdered(g, msg, exclude, failing, 0);
    if failing == {} {
      BroadcastFromNoFailure(g, msg, exclude, 0);
    }
  }

  /** A broadcast only retires slots and keeps the registry invariant. */
  lemma BroadcastKeepsValid(g: GameState, msg: Msg, exclude: int, failing: Failures)
    requires Valid(g)
    ensures AllRetire(g, BroadcastMessage(g, msg, exclude, failing).state)
    ensures Valid(BroadcastMessage(g, msg, exclude, failing).state)
  {
    var r := BroadcastMessage(g, msg, exclude, failing);
    BroadcastRetires(g, msg, exclude, failing);
    RetiringKeepsValid(g, r.state);
  }

  /** A broadcast closes no socket it leaves active. */
  lemma BroadcastKeepsSockets(g: GameState, msg: Msg, exclude: int, failing: Failures)
    requires SocketsOpen(g)
    ensures SocketsOpen(BroadcastMessage(g, msg, exclude, failing).state)
  {
  }

  /** A broadcast only evicts: every slot retires and keeps its ship. */
  lemma BroadcastRetires(g: GameState, msg: Msg, exclude: int, failing: Failures)
    ensures AllRetire(g, BroadcastMessage(g, msg, exclude, failing).state)
    ensures forall k | 0 <= k < MAX_CLIENTS ::
      BroadcastMessage(g, msg, exclude, failing).state.players[k].ship == g.players[k].ship
  {
  }

  /** The failure-free outbox depends only on who is connected, registered
      and with which socket. */
  lemma {:induction false} FanoutFromRoster(s: Slots, t: Slots, msg: Msg, exclude: int, i: nat)
    requires i <= MAX_CLIENTS
    requires forall k | i <= k < MAX_CLIENTS ::
      s[k].active == t[k].active && s[k].registered == t[k].registered && s[k].fd == t[k].fd
    ensures FanoutFrom(s, msg, exclude, i) == FanoutFrom(t, msg, exclude, i)
    decreases MAX_CLIENTS - i
  {
    if i < MAX_CLIENTS {
      FanoutFromRoster(s, t, msg, exclude, i + 1);
    }
  }

  /** Without failures every recipient, and only a recipient, receives the line. */
  lemma {:induction false} FanoutFromReaches(s: Slots, msg: Msg, exclude: int, i: nat, k: nat)
    requires i <= k < MAX_CLIENTS
    ensures Send(k, msg) in FanoutFrom(s, msg, exclude, i) <==> IsRecipient(s[k], exclude)
    decreases MAX_CLIENTS - i
  {
    if i < k {
      FanoutFromReaches(s, msg, exclude, i + 1, k);
    } else {
      FanoutFromAbove(s, msg, exclude, i + 1);
    }
  }

  lemma {:induction false} FanoutFromAbove(s: Slots, msg: Msg, exclude: int, i: nat)
    requires i <= MAX_CLIENTS
    ensures forall e | e in FanoutFrom(s, msg, exclude, i) :: e.Send? && i <= e.slot && e.msg == msg
    decreases MAX_CLIENTS - i
  {
    if i < MAX_CLIENTS {
      FanoutFromAbove(s, msg, exclude, i + 1);
    }
  }
}

=== FILE: combat.dfy ===
/** Bombing: damage_ships_at_cell, check_ship_destruction and handle_bomb. */
module Combat {
  import opened Defs
  import opened Geometry
  import opened State
  import opened Broadcast

  /** The bomb lands on a cell of the ship that is not damaged yet (the first
      cell matching the bomb decides, as in the source's inner loop). */
  predicate FreshHit(s: Ship, x: int, y: int) {
    var c := CellIndex(s.x, s.y, s.direction, x, y);
    c.Some? && !s.damaged[c.value]
  }

  /** The ship after the bomb at (x, y) damaged it. */
  function DamageAt(s: Ship, x: int, y: int): (t: Ship)
    requires FreshHit(s, x, y)
    ensures t.owner == s.owner && t.x == s.x && t.y == s.y && t.direction == s.direction
    ensures forall j | 0 <= j < SHIP_LENGTH :: t.damaged[j] <==> s.damaged[j] || ShipCell(s.x, s.y, s.direction, j) == (x, y)
    ensures t.totalDamage == s.totalDamage + 1
    ensures ShipConsistent(s) ==> ShipConsistent(t)
  {
    var j := CellIndex(s.x, s.y, s.direction, x, y).value;
    CountTrueSet(s.damaged, j);
    assert forall i | 0 <= i < SHIP_LENGTH && i != j :: ShipCell(s.x, s.y, s.direction, i) != (x, y) by {
      forall i | 0 <= i < SHIP_LENGTH && i != j ensures ShipCell(s.x, s.y, s.direction, i) != (x, y) {
        CellsDistinct(s.x, s.y, s.direction, i, j);
      }
    }
    s.(damaged := s.damaged[j := true], totalDamage := s.totalDamage + 1)
  }

  predicate FreshTarget(p: Player, x: int, y: int) {
    InPlay(p) && FreshHit(p.ship, x, y)
  }

  /** Some active, registered ship at or after slot i has an undamaged cell at (x, y). */
  predicate SomeFreshFrom(s: Slots, x: int, y: int, i: nat) {
    exists k | i <= k < MAX_CLIENTS :: FreshTarget(s[k], x, y)
  }

  /** h is what g may become under a bomb at (x, y): slots only retire, ships
      stay consistent, and a damage flag is only newly set on the bombed cell. */
  predicate BombEffect(g: GameState, h: GameState, x: int, y: int) {
    && AllRetire(g, h)
    && (forall k | 0 <= k < MAX_CLIENTS :: ShipConsistent(g.players[k].ship) ==> ShipConsistent(h.players[k].ship))
    && (forall k, j | 0 <= k < MAX_CLIENTS && 0 <= j < SHIP_LENGTH ::
          h.players[k].ship.damaged[j] && !g.players[k].ship.damaged[j] ==>
            ShipCell(g.players[k].ship.x, g.players[k].ship.y, g.players[k].ship.direction, j) == (x, y))
  }

  lemma BombEffectTransitive(g: GameState, h: GameState, i: GameState, x: int, y: int)
    requires BombEffect(g, h, x, y) && BombEffect(h, i, x, y)
    ensures BombEffect(g, i, x, y)
  {
    forall k, j | 0 <= k < MAX_CLIENTS && 0 <= j < SHIP_LENGTH &&
        i.players[k].ship.damaged[j] && !g.players[k].ship.damaged[j]
      ensures ShipCell(g.players[k].ship.x, g.players[k].ship.y, g.players[k].ship.direction, j) == (x, y)
    {
      assert Retires(g.players[k], h.players[k]);
    }
  }

  /** A broadcast leaves every ship as it was. */
  lemma BroadcastIsBombEffect(g: GameState, msg: Msg, failing: Failures, x: int, y: int)
    ensures BombEffect(g, BroadcastMessage(g, msg, -1, failing).state, x, y)
  {
  }

  /** The registry after slot i's ship took the bomb. */
  function Strike(g: GameState, i: nat, x: int, y: int): (h: GameState)
    requires i < MAX_CLIENTS && FreshHit(g.players[i].ship, x, y)
    ensures BombEffect(g, h, x, y)
    ensures Drift(h) == Drift(g)
    ensures forall k | 0 <= k < MAX_CLIENTS && k != i :: h.players[k] == g.players[k]
    ensures h.players[i] == g.players[i].(ship := DamageAt(g.players[i].ship, x, y))
  {
    var h := g.(players := g.players[i := g.players[i].(ship := DamageAt(g.players[i].ship, x, y))]);
    assert ActiveSet(h.players) == ActiveSet(g.players);
    h
  }

  /** The loop of damage_ships_at_cell from slot i on; `hit` is hit_any_ship.
      Its contract is DamageFromFrame. */
  function DamageFrom(g: GameState, x: int, y: int, attacker: Name, failing: Failures, i: nat, hit: bool): Step
    requires i <= MAX_CLIENTS
    decreases MAX_CLIENTS - i
  {
    if i == MAX_CLIENTS then
      if hit then Step(g, []) else BroadcastMessage(g, Miss(attacker, x, y), -1, failing)
    else
      var p := g.players[i];
      if p.active && p.registered && FreshHit(p.ship, x, y) then
        var b := BroadcastMessage(Strike(g, i, x, y), Hit(attacker, x, y, p.ship.owner), -1, failing);
        var rest := DamageFrom(b.state, x, y, attacker, failing, i + 1, true);
        Step(rest.state, b.out + rest.out)
      else
        DamageFrom(g, x, y, attacker, failing, i + 1, hit)
  }

  /** The damage loop only retires slots and damages the bombed cell, keeps
      player_count in step, and without a fresh target (and no earlier hit)
      is exactly the MISS broadcast. */
  lemma {:induction false} DamageFromFrame(g: GameState, x: int, y: int, attacker: Name, failing: Failures, i: nat, hit: bool)
    requires i <= MAX_CLIENTS
    ensures var r := DamageFrom(g, x, y, attacker, failing, i, hit);
      && BombEffect(g, r.state, x, y)
      && Drift(r.state) == Drift(g)
      && (!hit && !SomeFreshFrom(g.players, x, y, i) ==> r == BroadcastMessage(g, Miss(attacker, x, y), -1, failing))
    ensures forall k | 0 <= k < MAX_CLIENTS && Reached(failing, k) ::
      DamageFrom(g, x, y, attacker, failing, i, hit).state.players[k] == (if i <= k then Bombed(g.players[k], x, y) else g.players[k])
    decreases MAX_CLIENTS - i
  {
    forall k | 0 <= k < MAX_CLIENTS && Reached(failing, k)
      ensures DamageFrom(g, x, y, attacker, failing, i, hit).state.players[k] == (if i <= k then Bombed(g.players[k], x, y) else g.players[k])
    {
      DamageReached(g, x, y, attacker, failing, i, hit, k);
    }
    if i == MAX_CLIENTS {
      if !hit {
        BroadcastIsBombEffect(g, Miss(attacker, x, y), failing, x, y);
      }
    } else {
      var p := g.players[i];
      if FreshTarget(p, x, y) {
        var g1 := Strike(g, i, x, y);
        var msg := Hit(attacker, x, y, p.ship.owner);
        var b := BroadcastMessage(g1, msg, -1, failing);
        var rest := DamageFrom(b.state, x, y, attacker, failing, i + 1, true);
        DamageFromFrame(b.state, x, y, attacker, failing, i + 1, true);
        BroadcastIsBombEffect(g1, msg, failing, x, y);
        BombEffectTransitive(g, g1, b.state, x, y);
        BombEffectTransitive(g, b.state, rest.state, x, y);
      } else {
        DamageFromFrame(g, x, y, attacker, failing, i + 1, hit);
        SomeFreshFromNext(g.players, x, y, i);
      }
    }
  }

  /** damage_ships_at_cell: every active, registered ship with an undamaged
      cell at (x, y) gets that cell damaged and a `HIT` broadcast; if no ship
      is newly damaged a single `MISS` is broadcast. Damage flags are only
      ever set, and only on the bombed cell. */
  function DamageShipsAtCell(g: GameState, x: int, y: int, attacker: Name, failing: Failures): (r: Step)
    ensures BombEffect(g, r.state, x, y)
    ensures Drift(r.state) == Drift(g)
    ensures !SomeFreshFrom(g.players, x, y, 0) ==> r == BroadcastMessage(g, Miss(attacker, x, y), -1, failing)
    ensures forall k | 0 <= k < MAX_CLIENTS && Reached(failing, k) :: r.state.players[k] == Bombed(g.players[k], x, y)
  {
    DamageFromFrame(g, x, y, attacker, failing, 0, false);
    DamageFrom(g, x, y, attacker, failing, 0, false)
  }

  /** Whatever fails elsewhere, a slot that every send reaches stays in
      play and takes exactly the damage the bomb deals it: a broadcast only
      evicts the recipients whose own send failed. */
  lemma {:induction false} DamageReached(g: GameState, x: int, y: int, attacker: Name, failing: Failures, i: nat, hit: bool, k: nat)
    requires i <= MAX_CLIENTS && k < MAX_CLIENTS && Reached(failing, k)
    ensures DamageFrom(g, x, y, attacker, failing, i, hit).state.players[k] ==
      (if i <= k then Bombed(g.players[k], x, y) else g.players[k])
    decreases MAX_CLIENTS - i
  {
    if i < MAX_CLIENTS {
      var p := g.players[i];
      if FreshTarget(p, x, y) {
        var g1 := Strike(g, i, x, y);
        var b := BroadcastMessage(g1, Hit(attacker, x, y, p.ship.owner), -1, failing);
        assert b.state.players[k] == g1.players[k];
        DamageReached(b.state, x, y, attacker, failing, i + 1, true, k);
      } else {
        DamageReached(g, x, y, attacker, failing, i + 1, hit, k);
      }
    }
  }

  /** Whatever fails elsewhere, the `HIT` for a fresh target k that every
      send reaches is delivered to every player in play that every send
      reaches. */
  lemma HitsDelivered(g: GameState, x: int, y: int, attacker: Name, failing: Failures)
    requires SocketsOpen(g)
    ensures forall k, m | 0 <= k < MAX_CLIENTS && 0 <= m < MAX_CLIENTS && FreshTarget(g.players[k], x, y)
                && Reached(failing, k) && InPlay(g.players[m]) && Reached(failing, m) ::
      Send(m, Hit(attacker, x, y, g.players[k].ship.owner)) in DamageShipsAtCell(g, x, y, attacker, failing).out
  {
    forall k, m | 0 <= k < MAX_CLIENTS && 0 <= m < MAX_CLIENTS && FreshTarget(g.players[k], x, y)
        && Reached(failing, k) && InPlay(g.players[m]) && Reached(failing, m)
      ensures Send(m, Hit(attacker, x, y, g.players[k].ship.owner)) in DamageShipsAtCell(g, x, y, attacker, failing).out
    {
      HitDelivered(g, x, y, attacker, failing, 0, false, k, m);
    }
  }

  lemma {:induction false} HitDelivered(g: GameState, x: int, y: int, attacker: Name, failing: Failures, i: nat, hit: bool, k: nat, m: nat)
    requires i <= k < MAX_CLIENTS && m < MAX_CLIENTS && SocketsOpen(g)
    requires FreshTarget(g.players[k], x, y) && Reached(failing, k)
    requires InPlay(g.players[m]) && Reached(failing, m)
    ensures Send(m, Hit(attacker, x, y, g.players[k].ship.owner)) in DamageFrom(g, x, y, attacker, failing, i, hit).out
    decreases MAX_CLIENTS - i, 1
  {
    DamageFromStep(g, x, y, attacker, failing, i, hit);
    if i == k {
      var msg := Hit(attacker, x, y, g.players[i].ship.owner);
      var g1 := Strike(g, i, x, y);
      BroadcastOutbox(g1, msg, -1, failing);
      assert Expected(g1, msg, failing, m) == Send(m, msg);
    } else if FreshTarget(g.players[i], x, y) {
      HitDeliveredLater(g, x, y, attacker, failing, i, k, m);
    } else {
      HitDelivered(g, x, y, attacker, failing, i + 1, hit, k, m);
    }
  }

  /** HitDelivered past a fresh target i before k: the `HIT` broadcast for i
      leaves k and m as they were, up to the damage on i's own ship. */
  lemma {:induction false} HitDeliveredLater(g: GameState, x: int, y: int, attacker: Name, failing: Failures, i: nat, k: nat, m: nat)
    requires i < k < MAX_CLIENTS && m < MAX_CLIENTS && SocketsOpen(g) && FreshTarget(g.players[i], x, y)
    requires FreshTarget(g.players[k], x, y) && Reached(failing, k)
    requires InPlay(g.players[m]) && Reached(failing, m)
    ensures forall hit: bool ::
      Send(m, Hit(attacker, x, y, g.players[k].ship.owner)) in DamageFrom(g, x, y, attacker, failing, i, hit).out
    decreases MAX_CLIENTS - i, 0
  {
    var g1 := Strike(g, i, x, y);
    var b := BroadcastMessage(g1, Hit(attacker, x, y, g.players[i].ship.owner), -1, failing);
    BroadcastKeepsSockets(g1, Hit(attacker, x, y, g.players[i].ship.owner), -1, failing);
    assert b.state.players[k] == g.players[k];
    assert InPlay(b.state.players[m]);
    HitDelivered(b.state, x, y, attacker, failing, i + 1, true, k, m);
    forall hit: bool
      ensures Send(m, Hit(attacker, x, y, g.players[k].ship.owner)) in DamageFrom(g, x, y, attacker, failing, i, hit).out
    {
      DamageFromStep(g, x, y, attacker, failing, i, hit);
    }
  }

  lemma DamageKeepsValid(g: GameState, x: int, y: int, attacker: Name, failing: Failures)
    requires Valid(g)
    ensures Valid(DamageShipsAtCell(g, x, y, attacker, failing).state)
  {
    RetiringKeepsValid(g, DamageShipsAtCell(g, x, y, attacker, failing).state);
  }

  /** A bomb off the board is always a miss: nothing changes but what the
      MISS broadcast itself does. */
  lemma OffBoardIsMiss(g: GameState, x: int, y: int, attacker: Name, failing: Failures)
    requires Valid(g)
    requires !OnBoard(x, y)
    ensures DamageShipsAtCell(g, x, y, attacker, failing) == BroadcastMessage(g, Miss(attacker, x, y), -1, failing)
  {
    forall k | 0 <= k < MAX_CLIENTS
      ensures !FreshTarget(g.players[k], x, y)
    {
      if g.players[k].registered {
        var s := g.players[k].ship;
        OffBoardNeverMatches(s.x, s.y, s.direction, x, y);
      }
    }
  }

  /** Unfolding helper for the proofs: one iteration of the damage loop,
      not a specification of its outbox (HitsDelivered and
      DamageFromHitsOwners state that). */
  lemma DamageFromStep(g: GameState, x: int, y: int, attacker: Name, failing: Failures, i: nat, hit: bool)
    requires i < MAX_CLIENTS
    ensures FreshTarget(g.players[i], x, y) ==>
      var b := BroadcastMessage(Strike(g, i, x, y), Hit(attacker, x, y, g.players[i].ship.owner), -1, failing);
      DamageFrom(g, x, y, attacker, failing, i, hit).out == b.out + DamageFrom(b.state, x, y, attacker, failing, i + 1, true).out
    ensures !FreshTarget(g.players[i], x, y) ==>
      DamageFrom(g, x, y, attacker, failing, i, hit) == DamageFrom(g, x, y, attacker, failing, i + 1, hit)
  {
  }

  /** Every line in the outbox is a HIT by `attacker` at (x, y). */
  predicate OnlyHits(out: seq<Effect>, attacker: Name, x: int, y: int) {
    forall n | 0 <= n < |out| :: out[n].Send? ==> out[n].msg.Hit? && out[n].msg.attacker == attacker && out[n].msg.x == x && out[n].msg.y == y
  }

  lemma OnlyHitsConcat(a: seq<Effect>, b: seq<Effect>, attacker: Name, x: int, y: int)
    requires OnlyHits(a, attacker, x, y) && OnlyHits(b, attacker, x, y)
    ensures OnlyHits(a + b, attacker, x, y)
  {
    forall n | 0 <= n < |a + b| && (a + b)[n].Send?
      ensures (a + b)[n].msg.Hit? && (a + b)[n].msg.attacker == attacker && (a + b)[n].msg.x == x && (a + b)[n].msg.y == y
    {
      if n >= |a| {
        assert (a + b)[n] == b[n - |a|];
      }
    }
  }

  /** A HIT broadcast writes nothing but that HIT line. */
  lemma HitBroadcastOnlyHits(g: GameState, attacker: Name, x: int, y: int, owner: Name, failing: Failures)
    ensures OnlyHits(BroadcastMessage(g, Hit(attacker, x, y, owner), -1, failing).out, attacker, x, y)
  {
    var msg := Hit(attacker, x, y, owner);
    var b := BroadcastMessage(g, msg, -1, failing);
    BroadcastFromEntries(g, msg, -1, failing, 0);
    forall n | 0 <= n < |b.out|
      ensures Delivery(g, msg, -1, failing, b.out[n])
    {
    }
  }

  /** Once some ship is newly damaged no MISS is sent: every line is a HIT
      carrying the attacker and the bombed point. */
  lemma {:induction false} DamageFromNoMiss(g: GameState, x: int, y: int, attacker: Name, failing: Failures, i: nat, hit: bool)
    requires i <= MAX_CLIENTS
    requires hit || SomeFreshFrom(g.players, x, y, i)
    ensures OnlyHits(DamageFrom(g, x, y, attacker, failing, i, hit).out, attacker, x, y)
    decreases MAX_CLIENTS - i
  {
    if i == MAX_CLIENTS {
      assert hit;
    } else if FreshTarget(g.players[i], x, y) {
      var b := BroadcastMessage(Strike(g, i, x, y), Hit(attacker, x, y, g.players[i].ship.owner), -1, failing);
      DamageFromNoMiss(b.state, x, y, attacker, failing, i + 1, true);
      DamageFromStep(g, x, y, attacker, failing, i, hit);
      HitBroadcastOnlyHits(Strike(g, i, x, y), attacker, x, y, g.players[i].ship.owner, failing);
      OnlyHitsConcat(b.out, DamageFrom(b.state, x, y, attacker, failing, i + 1, true).out, attacker, x, y);
    } else {
      SomeFreshFromNext(g.players, x, y, i);
      DamageFromNoMiss(g, x, y, attacker, failing, i + 1, hit);
      DamageFromStep(g, x, y, attacker, failing, i, hit);
    }
  }

  /** Skipping a slot that is no fresh target keeps a later fresh target in view. */
  lemma SomeFreshFromNext(s: Slots, x: int, y: int, i: nat)
    requires i < MAX_CLIENTS && !FreshTarget(s[i], x, y)
    ensures SomeFreshFrom(s, x, y, i) <==> SomeFreshFrom(s, x, y, i + 1)
  {
    if SomeFreshFrom(s, x, y, i) {
      var k :| i <= k < MAX_CLIENTS && FreshTarget(s[k], x, y);
      assert k != i;
    }
  }

  /** Every HIT in the outbox names the owner of a ship that was a fresh
      target at or after slot i. */
  predicate HitsOwnedFrom(out: seq<Effect>, s: Slots, x: int, y: int, i: nat) {
    forall n | 0 <= n < |out| :: out[n].Send? && out[n].msg.Hit? ==>
      exists k | i <= k < MAX_CLIENTS :: FreshTarget(s[k], x, y) && s[k].ship.owner == out[n].msg.owner
  }

  lemma HitsOwnedConcat(a: seq<Effect>, b: seq<Effect>, s: Slots, x: int, y: int, i: nat)
    requires HitsOwnedFrom(a, s, x, y, i) && HitsOwnedFrom(b, s, x, y, i)
    ensures HitsOwnedFrom(a + b, s, x, y, i)
  {
    forall n | 0 <= n < |a + b| && (a + b)[n].Send? && (a + b)[n].msg.Hit?
      ensures exists k | i <= k < MAX_CLIENTS :: FreshTarget(s[k], x, y) && s[k].ship.owner == (a + b)[n].msg.owner
    {
      if n >= |a| {
        assert (a + b)[n] == b[n - |a|];
      }
    }
  }

  lemma HitsOwnedTransport(out: seq<Effect>, s: Slots, t: Slots, x: int, y: int, i: nat)
    requires i < MAX_CLIENTS
    requires HitsOwnedFrom(out, s, x, y, i + 1)
    requires forall k | i + 1 <= k < MAX_CLIENTS && FreshTarget(s[k], x, y) :: s[k] == t[k]
    ensures HitsOwnedFrom(out, t, x, y, i)
  {
    forall n | 0 <= n < |out| && out[n].Send? && out[n].msg.Hit?
      ensures exists k | i <= k < MAX_CLIENTS :: FreshTarget(t[k], x, y) && t[k].ship.owner == out[n].msg.owner
    {
      var k :| i + 1 <= k < MAX_CLIENTS && FreshTarget(s[k], x, y) && s[k].ship.owner == out[n].msg.owner;
      assert s[k] == t[k];
    }
  }

  /** Every HIT names the owner of a ship that was in play and had an
      undamaged cell at the bombed point when the bomb was fired. */
  lemma {:induction false} DamageFromHitsOwners(g: GameState, x: int, y: int, attacker: Name, failing: Failures, i: nat, hit: bool)
    requires i <= MAX_CLIENTS
    ensures HitsOwnedFrom(DamageFrom(g, x, y, attacker, failing, i, hit).out, g.players, x, y, i)
    decreases MAX_CLIENTS - i
  {
    if i == MAX_CLIENTS {
      if !hit {
        var msg := Miss(attacker, x, y);
        BroadcastFromEntries(g, msg, -1, failing, 0);
        var out := BroadcastMessage(g, msg, -1, failing).out;
        forall n | 0 <= n < |out| && out[n].Send?
          ensures !out[n].msg.Hit?
        {
          assert Delivery(g, msg, -1, failing, out[n]);
        }
      }
    } else {
      DamageFromStep(g, x, y, attacker, failing, i, hit);
      var p := g.players[i];
      if FreshTarget(p, x, y) {
        var g1 := Strike(g, i, x, y);
        var msg := Hit(attacker, x, y, p.ship.owner);
        var b := BroadcastMessage(g1, msg, -1, failing);
        var rest := DamageFrom(b.state, x, y, attacker, failing, i + 1, true).out;
        BroadcastFromEntries(g1, msg, -1, failing, 0);
        assert HitsOwnedFrom(b.out, g.players, x, y, i) by {
          forall n | 0 <= n < |b.out| && b.out[n].Send? && b.out[n].msg.Hit?
            ensures FreshTarget(g.players[i], x, y) && g.players[i].ship.owner == b.out[n].msg.owner
          {
            assert Delivery(g1, msg, -1, failing, b.out[n]);
          }
        }
        DamageFromHitsOwners(b.state, x, y, attacker, failing, i + 1, true);
        forall k | i + 1 <= k < MAX_CLIENTS && FreshTarget(b.state.players[k], x, y)
          ensures b.state.players[k] == g.players[k]
        {
          assert b.state.players[k] == AfterSend(g1.players[k], k, msg, -1, failing);
        }
        HitsOwnedTransport(rest, b.state.players, g.players, x, y, i);
        HitsOwnedConcat(b.out, rest, g.players, x, y, i);
      } else {
        DamageFromHitsOwners(g, x, y, attacker, failing, i + 1, hit);
      }
    }
  }

  /** The HIT broadcasts a bomb causes when no send fails: for every fresh
      target, in ascending slot order, one HIT naming its owner to every
      registered player. */
  function HitWave(s: Slots, x: int, y: int, attacker: Name, i: nat): seq<Effect>
    requires i <= MAX_CLIENTS
    decreases MAX_CLIENTS - i
  {
    if i == MAX_CLIENTS then []
    else
      (if FreshTarget(s[i], x, y) then Fanout(s, Hit(attacker, x, y, s[i].ship.owner), -1) else [])
      + HitWave(s, x, y, attacker, i + 1)
  }

  /** A slot after the bomb when no send fails. */
  function Bombed(p: Player, x: int, y: int): Player {
    if FreshTarget(p, x, y) then p.(ship := DamageAt(p.ship, x, y)) else p
  }

  predicate SameRoster(s: Slots, t: Slots) {
    forall k | 0 <= k < MAX_CLIENTS :: s[k].active == t[k].active && s[k].registered == t[k].registered && s[k].fd == t[k].fd
  }

  lemma {:induction false} HitWaveFrame(s: Slots, t: Slots, x: int, y: int, attacker: Name, i: nat)
    requires i <= MAX_CLIENTS
    requires SameRoster(s, t)
    requires forall k | i <= k < MAX_CLIENTS :: s[k] == t[k]
    ensures HitWave(s, x, y, attacker, i) == HitWave(t, x, y, attacker, i)
    decreases MAX_CLIENTS - i
  {
    if i < MAX_CLIENTS {
      FanoutFromRoster(s, t, Hit(attacker, x, y, s[i].ship.owner), -1, 0);
      HitWaveFrame(s, t, x, y, attacker, i + 1);
    }
  }

  /** Without send failures a bomb damages every fresh target from slot i on,
      touches nothing else, and its outbox is the HIT wave, or a single MISS
      fan-out when nothing was hit. */
  lemma DamageFromNoFailure(g: GameState, x: int, y: int, attacker: Name, i: nat, hit: bool)
    requires i <= MAX_CLIENTS
    ensures var r := DamageFrom(g, x, y, attacker, {}, i, hit);
      && r.state.playerCount == g.playerCount
      && (forall k | 0 <= k < i :: r.state.players[k] == g.players[k])
      && (forall k | i <= k < MAX_CLIENTS :: r.state.players[k] == Bombed(g.players[k], x, y))
      && r.out == (if hit || SomeFreshFrom(g.players, x, y, i) then HitWave(g.players, x, y, attacker, i)
                   else Fanout(g.players, Miss(attacker, x, y), -1))
  {
    NoFailureState(g, x, y, attacker, i, hit);
    NoFailureOut(g, x, y, attacker, i, hit);
  }

  /** The registry half of DamageFromNoFailure. */
  lemma NoFailureState(g: GameState, x: int, y: int, attacker: Name, i: nat, hit: bool)
    requires i <= MAX_CLIENTS
    ensures var r := DamageFrom(g, x, y, attacker, {}, i, hit);
      && r.state.playerCount == g.playerCount
      && (forall k | 0 <= k < i :: r.state.players[k] == g.players[k])
      && (forall k | i <= k < MAX_CLIENTS :: r.state.players[k] == Bombed(g.players[k], x, y))
  {
    NoFailureCount(g, x, y, attacker, i, hit);
    forall k | 0 <= k < i
      ensures DamageFrom(g, x, y, attacker, {}, i, hit).state.players[k] == g.players[k]
    {
      NoFailureBelow(g, x, y, attacker, i, hit, k);
    }
    forall k | i <= k < MAX_CLIENTS
      ensures DamageFrom(g, x, y, attacker, {}, i, hit).state.players[k] == Bombed(g.players[k], x, y)
    {
      NoFailureSlot(g, x, y, attacker, i, hit, k);
    }
  }

  lemma {:induction false} NoFailureCount(g: GameState, x: int, y: int, attacker: Name, i: nat, hit: bool)
    requires i <= MAX_CLIENTS
    ensures DamageFrom(g, x, y, attacker, {}, i, hit).state.playerCount == g.playerCount
    decreases MAX_CLIENTS - i
  {
    if i == MAX_CLIENTS {
      BroadcastFromNoFailure(g, Miss(attacker, x, y), -1, 0);
    } else if FreshTarget(g.players[i], x, y) {
      var g1 := Strike(g, i, x, y);
      BroadcastFromNoFailure(g1, Hit(attacker, x, y, g.players[i].ship.owner), -1, 0);
      NoFailureCount(g1, x, y, attacker, i + 1, true);
    } else {
      NoFailureCount(g, x, y, attacker, i + 1, hit);
    }
  }

  /** Slots the loop has passed are left alone. */
  lemma {:induction false} NoFailureBelow(g: GameState, x: int, y: int, attacker: Name, i: nat, hit: bool, k: nat)
    requires k < i <= MAX_CLIENTS
    ensures DamageFrom(g, x, y, attacker, {}, i, hit).state.players[k] == g.players[k]
    decreases MAX_CLIENTS - i
  {
    if i == MAX_CLIENTS {
      BroadcastFromNoFailure(g, Miss(attacker, x, y), -1, 0);
    } else if FreshTarget(g.players[i], x, y) {
      var g1 := Strike(g, i, x, y);
      BroadcastFromNoFailure(g1, Hit(attacker, x, y, g.players[i].ship.owner), -1, 0);
      NoFailureBelow(g1, x, y, attacker, i + 1, true, k);
    } else {
      NoFailureBelow(g, x, y, attacker, i + 1, hit, k);
    }
  }

  /** Slot k at or after i ends up bombed. */
  lemma {:induction false} NoFailureSlot(g: GameState, x: int, y: int, attacker: Name, i: nat, hit: bool, k: nat)
    requires i <= k < MAX_CLIENTS
    ensures DamageFrom(g, x, y, attacker, {}, i, hit).state.players[k] == Bombed(g.players[k], x, y)
    decreases MAX_CLIENTS - i
  {
    if FreshTarget(g.players[i], x, y) {
      var g1 := Strike(g, i, x, y);
      BroadcastFromNoFailure(g1, Hit(attacker, x, y, g.players[i].ship.owner), -1, 0);
      if k == i {
        NoFailureBelow(g1, x, y, attacker, i + 1, true, k);
      } else {
        NoFailureSlot(g1, x, y, attacker, i + 1, true, k);
      }
    } else if k == i {
      NoFailureBelow(g, x, y, attacker, i + 1, hit, k);
    } else {
      NoFailureSlot(g, x, y, attacker, i + 1, hit, k);
    }
  }

  /** The outbox half of DamageFromNoFailure. */
  lemma {:induction false} NoFailureOut(g: GameState, x: int, y: int, attacker: Name, i: nat, hit: bool)
    requires i <= MAX_CLIENTS
    ensures DamageFrom(g, x, y, attacker, {}, i, hit).out ==
      (if hit || SomeFreshFrom(g.players, x, y, i) then HitWave(g.players, x, y, attacker, i)
       else Fanout(g.players, Miss(attacker, x, y), -1))
    decreases MAX_CLIENTS - i, 1
  {
    if i == MAX_CLIENTS {
      BroadcastFromNoFailure(g, Miss(attacker, x, y), -1, 0);
    } else {
      var p := g.players[i];
      if FreshTarget(p, x, y) {
        NoFailureOutHit(g, x, y, attacker, i, hit);
      } else {
        DamageFromStep(g, x, y, attacker, {}, i, hit);
        NoFailureOut(g, x, y, attacker, i + 1, hit);
        SomeFreshFromNext(g.players, x, y, i);
        HitWaveQuiet(g.players, x, y, attacker, i);
      }
    }
  }

  /** Unfolding helper for the proofs: a slot that is not a fresh target
      adds nothing to the HIT wave. */
  lemma HitWaveQuiet(s: Slots, x: int, y: int, attacker: Name, i: nat)
    requires i < MAX_CLIENTS && !FreshTarget(s[i], x, y)
    ensures HitWave(s, x, y, attacker, i) == HitWave(s, x, y, attacker, i + 1)
  {
    assert [] + HitWave(s, x, y, attacker, i + 1) == HitWave(s, x, y, attacker, i + 1);
  }

  /** NoFailureOut at a fresh target i: its HIT fan-out, then the rest of
      the wave. */
  lemma {:induction false} NoFailureOutHit(g: GameState, x: int, y: int, attacker: Name, i: nat, hit: bool)
    requires i < MAX_CLIENTS && FreshTarget(g.players[i], x, y)
    ensures DamageFrom(g, x, y, attacker, {}, i, hit).out == HitWave(g.players, x, y, attacker, i)
    decreases MAX_CLIENTS - i, 0
  {
    var g1 := Strike(g, i, x, y);
    var msg := Hit(attacker, x, y, g.players[i].ship.owner);
    BroadcastFromNoFailure(g1, msg, -1, 0);
    NoFailureOut(g1, x, y, attacker, i + 1, true);
    FanoutFromRoster(g1.players, g.players, msg, -1, 0);
    HitWaveFrame(g1.players, g.players, x, y, attacker, i + 1);
  }

  /** The whole bomb: the MISS/HIT outcome as stated by the lemmas above, for
      slot 0 on. */
  lemma DamageOutcome(g: GameState, x: int, y: int, attacker: Name, failing: Failures)
    ensures var r := DamageShipsAtCell(g, x, y, attacker, failing);
      && (SomeFreshFrom(g.players, x, y, 0) ==> OnlyHits(r.out, attacker, x, y))
      && HitsOwnedFrom(r.out, g.players, x, y, 0)
      && (failing == {} ==>
            && r.state.playerCount == g.playerCount
            && (forall k | 0 <= k < MAX_CLIENTS :: r.state.players[k] == Bombed(g.players[k], x, y))
            && r.out == (if SomeFreshFrom(g.players, x, y, 0) then HitWave(g.players, x, y, attacker, 0)
                         else Fanout(g.players, Miss(attacker, x, y), -1)))
  {
    if SomeFreshFrom(g.players, x, y, 0) {
      DamageFromNoMiss(g, x, y, attacker, failing, 0, false);
    }
    DamageFromHitsOwners(g, x, y, attacker, failing, 0, false);
    if failing == {} {
      DamageFromNoFailure(g, x, y, attacker, 0, false);
    }
  }

  // ------------------------------------------------------- destruction sweep

  /** A ship in play with all five cells damaged. */
  predicate Doomed(p: Player) {
    InPlay(p) && p.ship.totalDamage == SHIP_LENGTH
  }

  /** h is g with some players retired and every ship unchanged. */
  predicate Removal(g: GameState, h: GameState) {
    AllRetire(g, h) && forall k | 0 <= k < MAX_CLIENTS :: h.players[k].ship == g.players[k].ship
  }

  lemma RemovalIsBombEffect(g: GameState, h: GameState, x: int, y: int)
    requires Removal(g, h)
    ensures BombEffect(g, h, x, y)
  {
  }

  /** check_ship_destruction from slot i on, as corrected: a doomed player is
      announced with `GG <owner>` to everybody (itself included) and then
      retired and closed, unless its own GG send failed, in which case the
      broadcast has already retired and closed it. Its contract is
      SweepFromFrame. */
  function SweepFrom(g: GameState, failing: Failures, i: nat): Step
    requires i <= MAX_CLIENTS
    decreases MAX_CLIENTS - i
  {
    if i == MAX_CLIENTS then Step(g, [])
    else
      var p := g.players[i];
      if !p.active || !p.registered || p.ship.totalDamage != SHIP_LENGTH then
        SweepFrom(g, failing, i + 1)
      else
        var b := BroadcastMessage(g, GG(p.ship.owner), -1, failing);
        if b.state.players[i].active then
          var rest := SweepFrom(Retire(b.state, i), failing, i + 1);
          Step(rest.state, b.out + [Close(i, p.fd)] + rest.out)
        else
          var rest := SweepFrom(b.state, failing, i + 1);
          Step(rest.state, b.out + rest.out)
  }

  /** The sweep from slot i only retires slots, changes no ship, keeps
      player_count in step, and leaves no doomed player from slot i on. */
  lemma SweepFromFrame(g: GameState, failing: Failures, i: nat)
    requires i <= MAX_CLIENTS
    ensures var r := SweepFrom(g, failing, i);
      && Removal(g, r.state)
      && Drift(r.state) == Drift(g)
      && forall k | i <= k < MAX_CLIENTS :: !Doomed(r.state.players[k])
    ensures forall k | 0 <= k < MAX_CLIENTS && Reached(failing, k) ::
      SweepFrom(g, failing, i).state.players[k] == (if i <= k then Swept(g.players[k]) else g.players[k])
  {
    var r := SweepFrom(g, failing, i);
    forall k | 0 <= k < MAX_CLIENTS && Reached(failing, k)
      ensures r.state.players[k] == (if i <= k then Swept(g.players[k]) else g.players[k])
    {
      SweepReached(g, failing, i, k);
    }
    SweepDrift(g, failing, i);
    forall k | 0 <= k < MAX_CLIENTS
      ensures Retires(g.players[k], r.state.players[k]) && r.state.players[k].ship == g.players[k].ship
    {
      SweepSlot(g, failing, i, k);
    }
    forall k | i <= k < MAX_CLIENTS
      ensures !Doomed(r.state.players[k])
    {
      SweepClears(g, failing, i, k);
    }
  }

  /** The state the sweep carries on from after a doomed slot i. */
  function AfterDoom(g: GameState, failing: Failures, i: nat): (h: GameState)
    requires i < MAX_CLIENTS
    ensures Removal(g, h) && Drift(h) == Drift(g) && !h.players[i].active
  {
    var b := BroadcastMessage(g, GG(g.players[i].ship.owner), -1, failing);
    BroadcastRetires(g, GG(g.players[i].ship.owner), -1, failing);
    if b.state.players[i].active then Retire(b.state, i) else b.state
  }

  /** A doomed slot's GG broadcast leaves a reached slot alone, and the
      doomed slot itself retired. */
  lemma AfterDoomReached(g: GameState, failing: Failures, i: nat, k: nat)
    requires i < MAX_CLIENTS && k < MAX_CLIENTS && Doomed(g.players[i]) && Reached(failing, k)
    ensures AfterDoom(g, failing, i).players[k] == (if k == i then Evict(g.players[k]) else g.players[k])
  {
    var b := BroadcastMessage(g, GG(g.players[i].ship.owner), -1, failing);
    assert b.state.players[k] == g.players[k];
    if k == i {
      assert b.state.players[i].active;
      assert AfterDoom(g, failing, i) == Retire(b.state, i);
    }
  }

  /** Unfolding helper for the proofs: one iteration of the sweep. */
  lemma SweepFromUnfold(g: GameState, failing: Failures, i: nat)
    requires i < MAX_CLIENTS
    ensures Doomed(g.players[i]) ==> SweepFrom(g, failing, i).state == SweepFrom(AfterDoom(g, failing, i), failing, i + 1).state
    ensures !Doomed(g.players[i]) ==> SweepFrom(g, failing, i) == SweepFrom(g, failing, i + 1)
  {
  }

  lemma {:induction false} SweepDrift(g: GameState, failing: Failures, i: nat)
    requires i <= MAX_CLIENTS
    ensures Drift(SweepFrom(g, failing, i).state) == Drift(g)
    decreases MAX_CLIENTS - i
  {
    if i < MAX_CLIENTS {
      SweepFromUnfold(g, failing, i);
      if Doomed(g.players[i]) {
        SweepDrift(AfterDoom(g, failing, i), failing, i + 1);
      } else {
        SweepDrift(g, failing, i + 1);
      }
    }
  }

  /** Slot k only retires under the sweep, and keeps its ship. */
  lemma {:induction false} SweepSlot(g: GameState, failing: Failures, i: nat, k: nat)
    requires i <= MAX_CLIENTS && k < MAX_CLIENTS
    ensures var q := SweepFrom(g, failing, i).state.players[k];
      Retires(g.players[k], q) && q.ship == g.players[k].ship
    decreases MAX_CLIENTS - i
  {
    if i < MAX_CLIENTS {
      SweepFromUnfold(g, failing, i);
      if Doomed(g.players[i]) {
        var h := AfterDoom(g, failing, i);
        assert Retires(g.players[k], h.players[k]);
        SweepSlot(h, failing, i + 1, k);
      } else {
        SweepSlot(g, failing, i + 1, k);
      }
    }
  }

  /** No slot from i on is left doomed by the sweep. */
  lemma {:induction false} SweepClears(g: GameState, failing: Failures, i: nat, k: nat)
    requires i <= k < MAX_CLIENTS
    ensures !Doomed(SweepFrom(g, failing, i).state.players[k])
    decreases MAX_CLIENTS - i
  {
    SweepFromUnfold(g, failing, i);
    var g' := if Doomed(g.players[i]) then AfterDoom(g, failing, i) else g;
    if k == i {
      SweepSlot(g', failing, i + 1, k);
      assert Retires(g.players[k], g'.players[k]);
    } else {
      SweepClears(g', failing, i + 1, k);
    }
  }

  /** After the sweep no ship in play is fully damaged, no ship changed, and
      player_count still counts the active slots. */
  function CheckShipDestruction(g: GameState, failing: Failures): (r: Step)
    ensures Removal(g, r.state)
    ensures Drift(r.state) == Drift(g)
    ensures forall k | 0 <= k < MAX_CLIENTS :: !Doomed(r.state.players[k])
    ensures forall k | 0 <= k < MAX_CLIENTS && Reached(failing, k) :: r.state.players[k] == Swept(g.players[k])
  {
    SweepFromFrame(g, failing, 0);
    SweepFrom(g, failing, 0)
  }

  /** A slot after the sweep: retired if its ship is destroyed, as it was
      otherwise. */
  function Swept(p: Player): Player {
    if Doomed(p) then Evict(p) else p
  }

  /** Whatever fails elsewhere, a slot that every send reaches is retired by
      the sweep exactly when its ship is destroyed, and otherwise kept as it
      was: a GG broadcast only evicts the recipients whose own send failed. */
  lemma {:induction false} SweepReached(g: GameState, failing: Failures, i: nat, k: nat)
    requires i <= MAX_CLIENTS && k < MAX_CLIENTS && Reached(failing, k)
    ensures SweepFrom(g, failing, i).state.players[k] == (if i <= k then Swept(g.players[k]) else g.players[k])
    decreases MAX_CLIENTS - i
  {
    if i < MAX_CLIENTS {
      SweepFromUnfold(g, failing, i);
      if Doomed(g.players[i]) {
        var h := AfterDoom(g, failing, i);
        AfterDoomReached(g, failing, i, k);
        SweepReached(h, failing, i + 1, k);
      } else {
        SweepReached(g, failing, i + 1, k);
      }
    }
  }

  /** Whatever fails elsewhere, the `GG` of a destroyed ship whose owner
      every send reaches is delivered to every player in play that every
      send reaches, unless the sweep retired that player for its own
      destroyed ship in an earlier slot. */
  lemma GGsDelivered(g: GameState, failing: Failures)
    requires SocketsOpen(g)
    ensures forall k, m | 0 <= k < MAX_CLIENTS && 0 <= m < MAX_CLIENTS && Doomed(g.players[k]) && Reached(failing, k)
                && InPlay(g.players[m]) && Reached(failing, m) && !(m < k && Doomed(g.players[m])) ::
      Send(m, GG(g.players[k].ship.owner)) in CheckShipDestruction(g, failing).out
  {
    forall k, m | 0 <= k < MAX_CLIENTS && 0 <= m < MAX_CLIENTS && Doomed(g.players[k]) && Reached(failing, k)
        && InPlay(g.players[m]) && Reached(failing, m) && !(m < k && Doomed(g.players[m]))
      ensures Send(m, GG(g.players[k].ship.owner)) in CheckShipDestruction(g, failing).out
    {
      GGDelivered(g, failing, 0, k, m);
    }
  }

  lemma {:induction false} GGDelivered(g: GameState, failing: Failures, i: nat, k: nat, m: nat)
    requires i <= k < MAX_CLIENTS && m < MAX_CLIENTS && SocketsOpen(g)
    requires Doomed(g.players[k]) && Reached(failing, k)
    requires InPlay(g.players[m]) && Reached(failing, m) && !(i <= m < k && Doomed(g.players[m]))
    ensures Send(m, GG(g.players[k].ship.owner)) in SweepFrom(g, failing, i).out
    decreases MAX_CLIENTS - i, 1
  {
    if !Doomed(g.players[i]) {
      SweepFromUnfold(g, failing, i);
      GGDelivered(g, failing, i + 1, k, m);
    } else if i == k {
      var msg := GG(g.players[i].ship.owner);
      BroadcastOutbox(g, msg, -1, failing);
      assert Expected(g, msg, failing, m) == Send(m, msg);
      SweepFromDoomedOut(g, failing, i);
    } else {
      GGDeliveredLater(g, failing, i, k, m);
    }
  }

  /** GGDelivered past a doomed slot i before k: its GG broadcast and
      retirement leave k and m as they were. */
  lemma {:induction false} GGDeliveredLater(g: GameState, failing: Failures, i: nat, k: nat, m: nat)
    requires i < k < MAX_CLIENTS && m < MAX_CLIENTS && SocketsOpen(g) && Doomed(g.players[i])
    requires Doomed(g.players[k]) && Reached(failing, k)
    requires InPlay(g.players[m]) && Reached(failing, m) && !(i <= m < k && Doomed(g.players[m]))
    ensures Send(m, GG(g.players[k].ship.owner)) in SweepFrom(g, failing, i).out
    decreases MAX_CLIENTS - i, 0
  {
    var h := AfterDoom(g, failing, i);
    AfterDoomReached(g, failing, i, k);
    AfterDoomReached(g, failing, i, m);
    BroadcastKeepsSockets(g, GG(g.players[i].ship.owner), -1, failing);
    assert SocketsOpen(h);
    GGDelivered(h, failing, i + 1, k, m);
    SweepFromDoomedOut(g, failing, i);
  }

  /** Unfolding helper for the proofs: the sweep's outbox at a doomed slot i
      holds the GG broadcast's outbox and the outbox of the sweep from
      slot i + 1. */
  lemma SweepFromDoomedOut(g: GameState, failing: Failures, i: nat)
    requires i < MAX_CLIENTS && Doomed(g.players[i])
    ensures forall e | e in BroadcastMessage(g, GG(g.players[i].ship.owner), -1, failing).out ::
      e in SweepFrom(g, failing, i).out
    ensures forall e | e in SweepFrom(AfterDoom(g, failing, i), failing, i + 1).out :: e in SweepFrom(g, failing, i).out
  {
  }

  lemma CheckShipDestructionKeepsValid(g: GameState, failing: Failures)
    requires Valid(g)
    ensures Valid(CheckShipDestruction(g, failing).state)
  {
    RetiringKeepsValid(g, CheckShipDestruction(g, failing).state);
  }

  /** With no fully damaged ship in play the sweep does nothing at all. */
  lemma {:induction false} SweepQuiet(g: GameState, failing: Failures, i: nat)
    requires i <= MAX_CLIENTS
    requires forall k | i <= k < MAX_CLIENTS :: !Doomed(g.players[k])
    ensures SweepFrom(g, failing, i) == Step(g, [])
    decreases MAX_CLIENTS - i
  {
    if i < MAX_CLIENTS {
      SweepQuiet(g, failing, i + 1);
    }
  }

  /** Unfolding helper for the proofs: one iteration of the failure-free
      sweep, not a specification of its outbox (SweepFromNoFailureOut
      states that). */
  lemma SweepFromStep(g: GameState, i: nat)
    requires i < MAX_CLIENTS
    ensures Doomed(g.players[i]) ==>
      SweepFrom(g, {}, i).state == SweepFrom(Retire(g, i), {}, i + 1).state
    ensures Doomed(g.players[i]) ==>
      SweepFrom(g, {}, i).out ==
        Fanout(g.players, GG(g.players[i].ship.owner), -1) + [Close(i, g.players[i].fd)] + SweepFrom(Retire(g, i), {}, i + 1).out
    ensures !Doomed(g.players[i]) ==> SweepFrom(g, {}, i) == SweepFrom(g, {}, i + 1)
  {
    if Doomed(g.players[i]) {
      BroadcastOutbox(g, GG(g.players[i].ship.owner), -1, {});
    }
  }

  /** r is g with exactly the doomed slots from i on evicted. */
  predicate SweptCleanly(g: GameState, r: GameState, i: nat) {
    && (forall k | 0 <= k < i && k < MAX_CLIENTS :: r.players[k] == g.players[k])
    && (forall k | i <= k < MAX_CLIENTS ::
          r.players[k] == (if Doomed(g.players[k]) then Evict(g.players[k]) else g.players[k]))
  }

  lemma SweptCleanlyStep(g: GameState, r: GameState, i: nat)
    requires i < MAX_CLIENTS && Doomed(g.players[i])
    requires SweptCleanly(Retire(g, i), r, i + 1)
    ensures SweptCleanly(g, r, i)
  {
    var g' := Retire(g, i);
    forall k | 0 <= k < MAX_CLIENTS && k != i
      ensures g'.players[k] == g.players[k]
    {
    }
  }

  lemma SweptDoomedSlot(g: GameState, i: nat)
    requires i < MAX_CLIENTS && Doomed(g.players[i])
    requires SweptCleanly(Retire(g, i), SweepFrom(Retire(g, i), {}, i + 1).state, i + 1)
    ensures SweptCleanly(g, SweepFrom(g, {}, i).state, i)
  {
    SweepFromStep(g, i);
    SweptCleanlyStep(g, SweepFrom(Retire(g, i), {}, i + 1).state, i);
  }

  lemma SweptQuietSlot(g: GameState, i: nat)
    requires i < MAX_CLIENTS && !Doomed(g.players[i])
    requires SweptCleanly(g, SweepFrom(g, {}, i + 1).state, i + 1)
    ensures SweptCleanly(g, SweepFrom(g, {}, i).state, i)
  {
    SweepFromStep(g, i);
  }

  /** Without send failures exactly the doomed players are retired. */
  lemma {:induction false} SweepFromNoFailureState(g: GameState, i: nat)
    requires i <= MAX_CLIENTS
    ensures SweptCleanly(g, SweepFrom(g, {}, i).state, i)
    decreases MAX_CLIENTS - i
  {
    if i < MAX_CLIENTS {
      if Doomed(g.players[i]) {
        SweepFromNoFailureState(Retire(g, i), i + 1);
        SweptDoomedSlot(g, i);
      } else {
        SweepFromNoFailureState(g, i + 1);
        SweptQuietSlot(g, i);
      }
    }
  }

  /** Every doomed player from slot i on hears its own GG and is closed. */
  predicate Announced(g: GameState, out: seq<Effect>, i: nat) {
    forall k | i <= k < MAX_CLIENTS && Doomed(g.players[k]) ::
      Send(k, GG(g.players[k].ship.owner)) in out && Close(k, g.players[k].fd) in out
  }

  /** Without send failures every doomed player hears its own GG, and its
      socket is closed after that GG; every player in play hears the GG of
      every destroyed ship, unless the sweep already retired it as a
      destroyed ship in an earlier slot (so a doomed player hears the GG of
      every doomed slot after it); and the outbox holds nothing else. */
  lemma SweepFromNoFailureOut(g: GameState, i: nat)
    requires i <= MAX_CLIENTS
    requires SocketsOpen(g)
    ensures Announced(g, SweepFrom(g, {}, i).out, i)
    ensures forall k, m | i <= k < MAX_CLIENTS && 0 <= m < MAX_CLIENTS && Doomed(g.players[k])
                && InPlay(g.players[m]) && !(i <= m < k && Doomed(g.players[m])) ::
      Send(m, GG(g.players[k].ship.owner)) in SweepFrom(g, {}, i).out
    ensures forall n | 0 <= n < |SweepFrom(g, {}, i).out| :: SweepLine(g, i, SweepFrom(g, {}, i).out[n])
    ensures forall k, b | i <= k < MAX_CLIENTS && Doomed(g.players[k]) && 0 <= b < |SweepFrom(g, {}, i).out|
                && SweepFrom(g, {}, i).out[b] == Close(k, g.players[k].fd) ::
      Send(k, GG(g.players[k].ship.owner)) in SweepFrom(g, {}, i).out[..b]
  {
    SweepFromNoFailureLines(g, i);
    forall k, b | i <= k < MAX_CLIENTS && Doomed(g.players[k]) && 0 <= b < |SweepFrom(g, {}, i).out|
        && SweepFrom(g, {}, i).out[b] == Close(k, g.players[k].fd)
      ensures Send(k, GG(g.players[k].ship.owner)) in SweepFrom(g, {}, i).out[..b]
    {
      GGBeforeClose(g, i, k, b);
    }
    forall k | i <= k < MAX_CLIENTS && Doomed(g.players[k])
      ensures Send(k, GG(g.players[k].ship.owner)) in SweepFrom(g, {}, i).out
      ensures Close(k, g.players[k].fd) in SweepFrom(g, {}, i).out
    {
      AnnouncedSlot(g, i, k);
    }
    forall k, m | i <= k < MAX_CLIENTS && 0 <= m < MAX_CLIENTS && Doomed(g.players[k])
        && InPlay(g.players[m]) && !(i <= m < k && Doomed(g.players[m]))
      ensures Send(m, GG(g.players[k].ship.owner)) in SweepFrom(g, {}, i).out
    {
      AnnouncedToOthers(g, i, k, m);
    }
  }

  /** An entry the failure-free sweep from slot i may write: the close of a
      doomed slot's socket, or the GG of a doomed slot k sent to a player in
      play that was not itself retired as doomed before slot k. */
  ghost predicate SweepLine(g: GameState, i: nat, e: Effect) {
    || (e.Close? && i <= e.slot < MAX_CLIENTS && Doomed(g.players[e.slot]) && e.fd == g.players[e.slot].fd)
    || (e.Send? && e.slot < MAX_CLIENTS && InPlay(g.players[e.slot]) && exists k :: GGLine(g, i, e.slot, e.msg, k))
  }

  /** msg is the GG of doomed slot k (k >= i), sent to a slot that is not
      itself a doomed slot swept before k. */
  predicate GGLine(g: GameState, i: nat, m: nat, msg: Msg, k: nat) {
    && i <= k < MAX_CLIENTS && Doomed(g.players[k]) && msg == GG(g.players[k].ship.owner)
    && !(i <= m < k && m < MAX_CLIENTS && Doomed(g.players[m]))
  }

  /** Without send failures the sweep writes nothing but SweepLine entries. */
  lemma SweepFromNoFailureLines(g: GameState, i: nat)
    requires i <= MAX_CLIENTS
    ensures forall n | 0 <= n < |SweepFrom(g, {}, i).out| :: SweepLine(g, i, SweepFrom(g, {}, i).out[n])
  {
    forall n | 0 <= n < |SweepFrom(g, {}, i).out|
      ensures SweepLine(g, i, SweepFrom(g, {}, i).out[n])
    {
      SweepEntry(g, i, n);
    }
  }

  lemma {:induction false} SweepEntry(g: GameState, i: nat, n: nat)
    requires i <= MAX_CLIENTS && n < |SweepFrom(g, {}, i).out|
    ensures SweepLine(g, i, SweepFrom(g, {}, i).out[n])
    decreases MAX_CLIENTS - i, 1
  {
    if Doomed(g.players[i]) {
      DoomedEntry(g, i, n);
    } else {
      SweepFromStep(g, i);
      SweepEntry(g, i + 1, n);
      NextLine(g, i, SweepFrom(g, {}, i).out[n]);
    }
  }

  /** SweepEntry at a doomed slot i: the entry lies in the GG fan-out, is
      the Close of slot i, or lies in the sweep from slot i + 1. */
  lemma {:induction false} DoomedEntry(g: GameState, i: nat, n: nat)
    requires i < MAX_CLIENTS && Doomed(g.players[i]) && n < |SweepFrom(g, {}, i).out|
    ensures SweepLine(g, i, SweepFrom(g, {}, i).out[n])
    decreases MAX_CLIENTS - i, 0
  {
    SweepFromStep(g, i);
    var out := SweepFrom(g, {}, i).out;
    var f := Fanout(g.players, GG(g.players[i].ship.owner), -1);
    var rest := SweepFrom(Retire(g, i), {}, i + 1).out;
    assert out == f + [Close(i, g.players[i].fd)] + rest;
    if n < |f| {
      assert out[n] == f[n];
      FanoutLine(g, i, f[n]);
    } else if n > |f| {
      var n' := n - |f| - 1;
      assert n' < |rest| && out[n] == rest[n'];
      SweepEntry(Retire(g, i), i + 1, n');
      RestLine(g, i, rest[n']);
    }
  }

  /** The GG fan-out for doomed slot i writes only SweepLine entries. */
  lemma FanoutLine(g: GameState, i: nat, e: Effect)
    requires i < MAX_CLIENTS && Doomed(g.players[i])
    requires e in Fanout(g.players, GG(g.players[i].ship.owner), -1)
    ensures SweepLine(g, i, e)
  {
    var msg := GG(g.players[i].ship.owner);
    BroadcastOutbox(g, msg, -1, {});
    var f := Fanout(g.players, msg, -1);
    var n :| 0 <= n < |f| && f[n] == e;
    assert Delivery(g, msg, -1, {}, f[n]);
    assert GGLine(g, i, e.slot, e.msg, i);
  }

  /** An entry of the sweep after doomed slot i retired is an entry of the
      sweep from slot i. */
  lemma RestLine(g: GameState, i: nat, e: Effect)
    requires i < MAX_CLIENTS && Doomed(g.players[i])
    requires SweepLine(Retire(g, i), i + 1, e)
    ensures SweepLine(g, i, e)
  {
    var h := Retire(g, i);
    assert h.players[e.slot] == g.players[e.slot];
    if e.Send? {
      var k: nat :| GGLine(h, i + 1, e.slot, e.msg, k);
      assert h.players[k] == g.players[k];
      assert GGLine(g, i, e.slot, e.msg, k);
    }
  }

  lemma NextLine(g: GameState, i: nat, e: Effect)
    requires i < MAX_CLIENTS && !Doomed(g.players[i])
    requires SweepLine(g, i + 1, e)
    ensures SweepLine(g, i, e)
  {
    if e.Send? {
      var k: nat :| GGLine(g, i + 1, e.slot, e.msg, k);
      assert GGLine(g, i, e.slot, e.msg, k);
    }
  }

  /** The GG of a destroyed ship reaches every player in play that the
      sweep has not retired before it. */
  lemma {:induction false} AnnouncedToOthers(g: GameState, i: nat, k: nat, m: nat)
    requires i <= k < MAX_CLIENTS && m < MAX_CLIENTS && Doomed(g.players[k]) && SocketsOpen(g)
    requires InPlay(g.players[m]) && !(i <= m < k && Doomed(g.players[m]))
    ensures Send(m, GG(g.players[k].ship.owner)) in SweepFrom(g, {}, i).out
    decreases MAX_CLIENTS - i
  {
    SweepFromStep(g, i);
    if i == k {
      FanoutFromReaches(g.players, GG(g.players[i].ship.owner), -1, 0, m);
    } else if Doomed(g.players[i]) {
      var g' := Retire(g, i);
      assert g'.players[k] == g.players[k] && g'.players[m] == g.players[m];
      AnnouncedToOthers(g', i + 1, k, m);
    } else {
      AnnouncedToOthers(g, i + 1, k, m);
    }
  }

  lemma {:induction false} AnnouncedSlot(g: GameState, i: nat, k: nat)
    requires i <= k < MAX_CLIENTS && Doomed(g.players[k]) && SocketsOpen(g)
    ensures Send(k, GG(g.players[k].ship.owner)) in SweepFrom(g, {}, i).out
    ensures Close(k, g.players[k].fd) in SweepFrom(g, {}, i).out
    decreases MAX_CLIENTS - i
  {
    SweepFromStep(g, i);
    if i == k {
      FanoutFromReaches(g.players, GG(g.players[i].ship.owner), -1, 0, i);
    } else if Doomed(g.players[i]) {
      var g' := Retire(g, i);
      assert g'.players[k] == g.players[k];
      AnnouncedSlot(g', i + 1, k);
    } else {
      AnnouncedSlot(g, i + 1, k);
    }
  }

  /** Without send failures a doomed player's GG is written before its
      socket is closed. */
  lemma {:induction false} GGBeforeClose(g: GameState, i: nat, k: nat, b: nat)
    requires i <= k < MAX_CLIENTS && Doomed(g.players[k]) && SocketsOpen(g)
    requires b < |SweepFrom(g, {}, i).out| && SweepFrom(g, {}, i).out[b] == Close(k, g.players[k].fd)
    ensures Send(k, GG(g.players[k].ship.owner)) in SweepFrom(g, {}, i).out[..b]
    decreases MAX_CLIENTS - i, 2
  {
    if Doomed(g.players[i]) {
      DoomedGGBeforeClose(g, i, k, b);
    } else {
      SweepFromQuietStep(g, i);
      GGBeforeClose(g, i + 1, k, b);
    }
  }

  /** GGBeforeClose at a doomed slot i: the close is that of slot i, which
      follows the GG fan-out, or lies in the sweep from slot i + 1. */
  lemma {:induction false} DoomedGGBeforeClose(g: GameState, i: nat, k: nat, b: nat)
    requires i <= k < MAX_CLIENTS && Doomed(g.players[k]) && SocketsOpen(g) && Doomed(g.players[i])
    requires b < |SweepFrom(g, {}, i).out| && SweepFrom(g, {}, i).out[b] == Close(k, g.players[k].fd)
    ensures Send(k, GG(g.players[k].ship.owner)) in SweepFrom(g, {}, i).out[..b]
    decreases MAX_CLIENTS - i, 1
  {
    SweepFromStep(g, i);
    var msg := GG(g.players[i].ship.owner);
    var f := Fanout(g.players, msg, -1);
    FanoutFromAbove(g.players, msg, -1, 0);
    CloseAfterSends(f, Close(i, g.players[i].fd), SweepFrom(Retire(g, i), {}, i + 1).out, b);
    if b == |f| {
      assert SweepFrom(g, {}, i).out[..b] == f;
      FanoutFromReaches(g.players, msg, -1, 0, i);
    } else {
      DoomedCloseLater(g, i, k, b);
    }
  }

  /** DoomedGGBeforeClose when the close lies in the sweep from slot i + 1. */
  lemma {:induction false} DoomedCloseLater(g: GameState, i: nat, k: nat, b: nat)
    requires i <= k < MAX_CLIENTS && Doomed(g.players[k]) && SocketsOpen(g) && Doomed(g.players[i])
    requires b < |SweepFrom(g, {}, i).out| && SweepFrom(g, {}, i).out[b] == Close(k, g.players[k].fd)
    requires b > |Fanout(g.players, GG(g.players[i].ship.owner), -1)|
    ensures Send(k, GG(g.players[k].ship.owner)) in SweepFrom(g, {}, i).out[..b]
    decreases MAX_CLIENTS - i, 0
  {
    SweepFromStep(g, i);
    var f := Fanout(g.players, GG(g.players[i].ship.owner), -1);
    var c := Close(i, g.players[i].fd);
    var h := Retire(g, i);
    var rest := SweepFrom(h, {}, i + 1).out;
    var b' := b - |f| - 1;
    SplitAfter(f, c, rest, b);
    SweepEntry(h, i + 1, b');
    assert h.players[k] == g.players[k];
    GGBeforeClose(h, i + 1, k, b');
  }

  /** Index b of a + [c] + rest past c is index b - |a| - 1 of rest, and the
      prefix before it extends rest's prefix. */
  lemma SplitAfter(a: seq<Effect>, c: Effect, rest: seq<Effect>, b: nat)
    requires |a| < b < |a + [c] + rest|
    ensures (a + [c] + rest)[b] == rest[b - |a| - 1]
    ensures (a + [c] + rest)[..b] == a + [c] + rest[..b - |a| - 1]
  {
  }

  /** Unfolding helper for the proofs: the sweep passes over a slot that is
      not doomed. */
  lemma SweepFromQuietStep(g: GameState, i: nat)
    requires i < MAX_CLIENTS && !Doomed(g.players[i])
    ensures SweepFrom(g, {}, i) == SweepFrom(g, {}, i + 1)
  {
  }

  /** A close in a + [c] + rest where a holds only sends lies at or after c. */
  lemma CloseAfterSends(a: seq<Effect>, c: Effect, rest: seq<Effect>, b: nat)
    requires forall e | e in a :: e.Send?
    requires b < |a + [c] + rest| && (a + [c] + rest)[b].Close?
    ensures b >= |a|
  {
    forall n | 0 <= n < |a|
      ensures (a + [c] + rest)[n].Send?
    {
      assert (a + [c] + rest)[n] == a[n] && a[n] in a;
    }
  }

  /** check_ship_destruction as the source writes it: the doomed slot is
      retired and closed after the GG broadcast even when that broadcast has
      already retired it because the GG send to the doomed player failed. */
  function SweepFromAsWritten(g: GameState, failing: Failures, i: nat): (r: Step)
    requires i <= MAX_CLIENTS
    decreases MAX_CLIENTS - i
    ensures Removal(g, r.state)
    ensures Drift(r.state) <= Drift(g)
  {
    if i == MAX_CLIENTS then Step(g, [])
    else
      var p := g.players[i];
      if !p.active || !p.registered || p.ship.totalDamage != SHIP_LENGTH then
        SweepFromAsWritten(g, failing, i + 1)
      else
        var b := BroadcastMessage(g, GG(p.ship.owner), -1, failing);
        var rest := SweepFromAsWritten(Retire(b.state, i), failing, i + 1);
        Step(rest.state, b.out + [Close(i, p.fd)] + rest.out)
  }

  function CheckShipDestructionAsWritten(g: GameState, failing: Failures): (r: Step)
    ensures Removal(g, r.state)
    ensures Drift(r.state) <= Drift(g)
  {
    SweepFromAsWritten(g, failing, 0)
  }

  lemma {:induction false} SweepAsWrittenSkips(g: GameState, failing: Failures, j: nat, i: nat)
    requires j <= i <= MAX_CLIENTS
    requires forall k | j <= k < i :: !Doomed(g.players[k])
    ensures SweepFromAsWritten(g, failing, j) == SweepFromAsWritten(g, failing, i)
    decreases i - j
  {
    if j < i {
      SweepAsWrittenSkips(g, failing, j + 1, i);
    }
  }

  /** The source's sweep breaks the count invariant: when the first doomed
      player's own GG send fails, player_count is decremented twice for it. */
  lemma AsWrittenDoubleCount(g: GameState, failing: Failures, i: nat)
    requires Valid(g)
    requires i < MAX_CLIENTS && Doomed(g.players[i])
    requires forall k | 0 <= k < i :: !Doomed(g.players[k])
    requires (i, GG(g.players[i].ship.owner)) in failing
    ensures Drift(CheckShipDestructionAsWritten(g, failing).state) < 0
    ensures !Valid(CheckShipDestructionAsWritten(g, failing).state)
  {
    SweepAsWrittenSkips(g, failing, 0, i);
    var b := BroadcastMessage(g, GG(g.players[i].ship.owner), -1, failing);
    assert !b.state.players[i].active;
  }

  /** A concrete registry: slot 0 holds "A" with all five cells hit, socket 3. */
  function DoomedExample(): (g: GameState)
    ensures Valid(g) && Doomed(g.players[0])
  {
    var ship := Ship([65], 4, 4, HORIZONTAL, [true, true, true, true, true], 5);
    var g := GameState(seq(MAX_CLIENTS, k => if k == 0 then Player(3, [65], ship, true, true) else Vacant), 1);
    assert ActiveSet(g.players) == {0};
    assert CountTrue(NoDamage) == 0;
    assert CountTrue(ship.damaged) == 5 by {
      assert ship.damaged[1..][1..][1..][1..][1..] == [];
    }
    g
  }

  /** The counterexample: the GG to "A" fails. The source's sweep leaves
      player_count below the number of active slots; the corrected sweep
      keeps the invariant. */
  lemma DoubleCountExample()
    ensures var failing: Failures := {(0, GG([65]))};
      && !Valid(CheckShipDestructionAsWritten(DoomedExample(), failing).state)
      && Valid(CheckShipDestruction(DoomedExample(), failing).state)
  {
    var g := DoomedExample();
    var failing: Failures := {(0, GG([65]))};
    AsWrittenDoubleCount(g, failing, 0);
    CheckShipDestructionKeepsValid(g, failing);
  }

  // ---------------------------------------------------------------- bombing

  /** The two values a successful `BOMB %d %d` scan delivers. */
  datatype BombArgs = BombArgs(x: Int32, y: Int32)

  /** handle_bomb's result: `ok` is its return value 1, and the step taken. */
  datatype Bombing = Bombing(ok: bool, step: Step)

  /** handle_bomb: no bounds check on the point; damage, then sweep. The
      attacker is named by the bombing slot's own name. */
  function HandleBomb(g: GameState, slot: nat, args: Option<BombArgs>, failing: Failures): (r: Bombing)
    requires slot < MAX_CLIENTS
    ensures r.ok <==> args.Some?
    ensures !r.ok ==> r.step == Step(g, [])
    ensures Drift(r.step.state) == Drift(g)
    ensures r.ok ==> BombEffect(g, r.step.state, args.value.x, args.value.y)
    ensures r.ok ==> forall k | 0 <= k < MAX_CLIENTS :: !Doomed(r.step.state.players[k])
    ensures r.ok ==> forall k | 0 <= k < MAX_CLIENTS && Reached(failing, k) ::
      r.step.state.players[k] == Swept(Bombed(g.players[k], args.value.x, args.value.y))
  {
    match args
    case None => Bombing(false, Step(g, []))
    case Some(a) =>
      var d := DamageShipsAtCell(g, a.x, a.y, g.players[slot].name, failing);
      var s := CheckShipDestruction(d.state, failing);
      RemovalIsBombEffect(d.state, s.state, a.x, a.y);
      BombEffectTransitive(g, d.state, s.state, a.x, a.y);
      Bombing(true, Step(s.state, d.out + s.out))
  }

  /** Without send failures, a bomb that finds no undamaged cell in play,
      on a board with no doomed ship, changes nothing and sends one MISS to
      every registered player. */
  lemma QuietBomb(g: GameState, slot: nat, x: Int32, y: Int32)
    requires slot < MAX_CLIENTS
    requires forall k | 0 <= k < MAX_CLIENTS :: !Doomed(g.players[k])
    requires !SomeFreshFrom(g.players, x, y, 0)
    ensures HandleBomb(g, slot, Some(BombArgs(x, y)), {}) ==
      Bombing(true, Step(g, Fanout(g.players, Miss(g.players[slot].name, x, y), -1)))
  {
    var miss := Miss(g.players[slot].name, x, y);
    QuietDamage(g, x, y, g.players[slot].name);
    SweepQuiet(g, {}, 0);
    HandleBombUnfold(g, slot, BombArgs(x, y), {});
  }

  lemma QuietDamage(g: GameState, x: int, y: int, attacker: Name)
    requires !SomeFreshFrom(g.players, x, y, 0)
    ensures DamageShipsAtCell(g, x, y, attacker, {}) == Step(g, Fanout(g.players, Miss(attacker, x, y), -1))
  {
    BroadcastOutbox(g, Miss(attacker, x, y), -1, {});
  }

  /** Unfolding helper for the proofs: handle_bomb with arguments that
      scanned is the damage pass followed by the sweep. */
  lemma HandleBombUnfold(g: GameState, slot: nat, a: BombArgs, failing: Failures)
    requires slot < MAX_CLIENTS
    ensures var d := DamageShipsAtCell(g, a.x, a.y, g.players[slot].name, failing);
      var s := CheckShipDestruction(d.state, failing);
      HandleBomb(g, slot, Some(a), failing) == Bombing(true, Step(s.state, d.out + s.out))
  {
  }

  lemma HandleBombKeepsValid(g: GameState, slot: nat, args: Option<BombArgs>, failing: Failures)
    requires slot < MAX_CLIENTS
    requires Valid(g)
    ensures Valid(HandleBomb(g, slot, args, failing).step.state)
  {
    var r := HandleBomb(g, slot, args, failing);
    if r.ok {
      RetiringKeepsValid(g, r.step.state);
    }
  }
}

=== FILE: defs.dfy ===
/** Constants and small shared types of the battleship server (server.h). */
module Defs {

  /** Number of player slots in the registry. */
  const MAX_CLIENTS: nat := 100
  /** Size of a name buffer, terminating NUL included: names hold at most 20 bytes. */
  const MAX_NAME_LENGTH: nat := 21
  /** The board is BOARD_SIZE x BOARD_SIZE cells, coordinates 0..9. */
  const BOARD_SIZE: int := 10
  /** Every ship covers SHIP_LENGTH cells. */
  const SHIP_LENGTH: nat := 5
  /** Longest protocol line, terminator included. */
  const MAX_MESSAGE_LENGTH: nat := 100

  /** One byte of the wire protocol (a C `char`). */
  newtype byte = b: int | 0 <= b < 256

  /** A C `int` as produced by `%d`. */
  type Int32 = x: int | -0x8000_0000 <= x < 0x8000_0000

  const NEWLINE: byte := 10
  /** The direction byte `'-'` (horizontal ship). */
  const HORIZONTAL: byte := 45
  /** The direction byte `'|'` (vertical ship). */
  const VERTICAL: byte := 124

  datatype Option<T> = None | Some(value: T)
}

=== FILE: framer.dfy ===
/** The line reassembly of handle_client: bytes arrive one at a time, a line
    is handed on when its '\n' arrives (terminator included), and the client
    is cut off once 100 bytes have piled up without one. */
module Framer {
  import opened Defs

  type Line = seq<byte>

  /** A line the reader hands on: at most 100 bytes, ending in its only '\n'. */
  predicate CompleteLine(l: Line) {
    0 < |l| <= MAX_MESSAGE_LENGTH && l[|l| - 1] == NEWLINE && NEWLINE !in l[..|l| - 1]
  }

  /** How reading stops: the peer closed (or recv failed) with `partial` still
      buffered, or `pending` reached the length limit without a '\n'. */
  datatype Ending = PeerClosed(partial: Line) | Overlength(pending: Line)

  datatype Framing = Framing(lines: seq<Line>, ending: Ending)

  function Concat(ls: seq<Line>): Line {
    if |ls| == 0 then [] else ls[0] + Concat(ls[1..])
  }

  lemma ConcatCons(l: Line, ls: seq<Line>)
    ensures Concat([l] + ls) == l + Concat(ls)
  {
    assert ([l] + ls)[1..] == ls;
  }

  /** `r` accounts for the byte stream `stream`: every line handed on is
      complete; on a close, lines and partial buffer make up the whole
      stream; on overlength, lines and the 100 pending bytes are a prefix of it. */
  predicate Accounts(r: Framing, stream: seq<byte>) {
    && (forall n | 0 <= n < |r.lines| :: CompleteLine(r.lines[n]))
    && (r.ending.PeerClosed? ==>
          && Concat(r.lines) + r.ending.partial == stream
          && |r.ending.partial| < MAX_MESSAGE_LENGTH && NEWLINE !in r.ending.partial)
    && (r.ending.Overlength? ==>
          && Concat(r.lines) + r.ending.pending <= stream
          && |r.ending.pending| == MAX_MESSAGE_LENGTH && NEWLINE !in r.ending.pending)
  }

  /** Handing on one complete line in front keeps the account. */
  lemma AccountsCons(line: Line, rest: Framing, tail: seq<byte>)
    requires CompleteLine(line) && Accounts(rest, tail)
    ensures Accounts(Framing([line] + rest.lines, rest.ending), line + tail)
  {
    var r := Framing([line] + rest.lines, rest.ending);
    ConcatCons(line, rest.lines);
    assert forall n | 1 <= n < |r.lines| :: r.lines[n] == rest.lines[n - 1];
    if rest.ending.PeerClosed? {
      assert line + Concat(rest.lines) + rest.ending.partial == line + (Concat(rest.lines) + rest.ending.partial);
    } else {
      var front := Concat(rest.lines) + rest.ending.pending;
      assert line + Concat(rest.lines) + rest.ending.pending == line + front;
      assert line + front == (line + tail)[..|line| + |front|];
    }
  }

  lemma AccountsClosed(acc: Line)
    requires |acc| < MAX_MESSAGE_LENGTH && NEWLINE !in acc
    ensures Accounts(Framing([], PeerClosed(acc)), acc)
  {
    assert Concat([]) + acc == acc;
  }

  lemma AccountsOverlong(buf: Line, tail: seq<byte>)
    requires |buf| == MAX_MESSAGE_LENGTH && NEWLINE !in buf
    ensures Accounts(Framing([], Overlength(buf)), buf + tail)
  {
    assert Concat([]) + buf == (buf + tail)[..|buf|];
  }

  /** The buffer with the next byte appended, and what is left to read. */
  lemma ShiftByte(acc: Line, input: seq<byte>)
    requires |input| > 0
    ensures acc + input == (acc + [input[0]]) + input[1..]
    ensures [] + input[1..] == input[1..]
    ensures input[0] == NEWLINE && |acc| < MAX_MESSAGE_LENGTH && NEWLINE !in acc ==> CompleteLine(acc + [input[0]])
  {
    var buf := acc + [input[0]];
    assert buf[..|buf| - 1] == acc;
  }

  /** The read loop with `acc` already buffered. The `> MAX_MESSAGE_LENGTH`
      check on a terminated line is left out: the buffer never exceeds the
      limit, as the requires on `acc` records. */
  function FrameFrom(input: seq<byte>, acc: Line): (r: Framing)
    requires |acc| < MAX_MESSAGE_LENGTH && NEWLINE !in acc
    decreases |input|
    ensures Accounts(r, acc + input)
  {
    if |input| == 0 then
      assert acc + input == acc;
      AccountsClosed(acc);
      Framing([], PeerClosed(acc))
    else
      var buf := acc + [input[0]];
      ShiftByte(acc, input);
      if input[0] == NEWLINE then
        var rest := FrameFrom(input[1..], []);
        AccountsCons(buf, rest, input[1..]);
        Framing([buf] + rest.lines, rest.ending)
      else if |buf| >= MAX_MESSAGE_LENGTH then
        AccountsOverlong(buf, input[1..]);
        Framing([], Overlength(buf))
      else
        FrameFrom(input[1..], buf)
  }

  /** The lines a connection's byte stream yields, and how reading ends. */
  function Frame(input: seq<byte>): (r: Framing)
    ensures Accounts(r, input)
  {
    assert [] + input == input;
    FrameFrom(input, [])
  }

  lemma {:induction false} FrameFromLine(acc: Line, tail: Line, rest: seq<byte>)
    requires |acc| < MAX_MESSAGE_LENGTH && NEWLINE !in acc
    requires 0 < |tail| && CompleteLine(acc + tail)
    ensures FrameFrom(tail + rest, acc) == Framing([acc + tail] + Frame(rest).lines, Frame(rest).ending)
    decreases |tail|
  {
    var line := acc + tail;
    assert (tail + rest)[0] == tail[0];
    assert (tail + rest)[1..] == tail[1..] + rest;
    if |tail| == 1 {
      assert tail[0] == line[|line| - 1];
      assert tail[1..] + rest == rest;
      assert acc + [tail[0]] == line;
    } else {
      assert tail[0] == line[|acc|] == line[..|line| - 1][|acc|];
      var buf := acc + [tail[0]];
      assert buf + tail[1..] == line;
      assert buf == line[..|acc| + 1];
      FrameFromLine(buf, tail[1..], rest);
    }
  }

  /** A complete line at the head of the stream is always handed on, and
      reading continues after it with an empty buffer. */
  lemma FrameCompleteLine(l: Line, rest: seq<byte>)
    requires CompleteLine(l)
    ensures Frame(l + rest) == Framing([l] + Frame(rest).lines, Frame(rest).ending)
  {
    assert [] + l == l;
    FrameFromLine([], l, rest);
  }

  /** Framing inverts concatenation: a stream made of complete lines yields
      exactly those lines and ends with an empty buffer. */
  lemma {:induction false} FrameConcat(ls: seq<Line>)
    requires forall n | 0 <= n < |ls| :: CompleteLine(ls[n])
    ensures Frame(Concat(ls)) == Framing(ls, PeerClosed([]))
  {
    if |ls| > 0 {
      FrameConcat(ls[1..]);
      FrameCompleteLine(ls[0], Concat(ls[1..]));
      assert [ls[0]] + ls[1..] == ls;
    }
  }

  lemma {:induction false} FrameFromOverlong(acc: Line, tail: Line, rest: seq<byte>)
    requires |acc| < MAX_MESSAGE_LENGTH && NEWLINE !in acc
    requires |acc + tail| == MAX_MESSAGE_LENGTH && NEWLINE !in tail
    ensures FrameFrom(tail + rest, acc) == Framing([], Overlength(acc + tail))
    decreases |tail|
  {
    assert (tail + rest)[0] == tail[0];
    assert (tail + rest)[1..] == tail[1..] + rest;
    var buf := acc + [tail[0]];
    assert buf + tail[1..] == acc + tail;
    if |tail| > 1 {
      FrameFromOverlong(buf, tail[1..], rest);
    }
  }

  /** 100 bytes without a '\n' cut the client off: nothing is handed on,
      whatever follows. */
  lemma FrameOverlong(chunk: Line, rest: seq<byte>)
    requires |chunk| == MAX_MESSAGE_LENGTH && NEWLINE !in chunk
    ensures Frame(chunk + rest) == Framing([], Overlength(chunk))
  {
    assert [] + chunk == chunk;
    FrameFromOverlong([], chunk, rest);
  }

  lemma {:induction false} FrameFromPartial(acc: Line, tail: Line)
    requires |acc| < MAX_MESSAGE_LENGTH && NEWLINE !in acc
    requires |acc + tail| < MAX_MESSAGE_LENGTH && NEWLINE !in tail
    ensures FrameFrom(tail, acc) == Framing([], PeerClosed(acc + tail))
    decreases |tail|
  {
    if |tail| > 0 {
      var buf := acc + [tail[0]];
      assert buf + tail[1..] == acc + tail;
      FrameFromPartial(buf, tail[1..]);
    }
  }

  /** A stream that ends before its first '\n' (and before the limit)
      hands on nothing: the partial buffer is dropped when the peer closes. */
  lemma FramePartial(input: seq<byte>)
    requires |input| < MAX_MESSAGE_LENGTH && NEWLINE !in input
    ensures Frame(input) == Framing([], PeerClosed(input))
  {
    assert [] + input == input;
    FrameFromPartial([], input);
  }
}

=== FILE: geometry.dfy ===
/** Ship geometry: placement validation and the five cells a ship covers
    (is_valid_ship_placement and the cell computation of damage_ships_at_cell). */
module Geometry {
  import opened Defs

  predicate OnBoard(x: int, y: int) {
    0 <= x < BOARD_SIZE && 0 <= y < BOARD_SIZE
  }

  /** The placement check, with the source's branch order: a horizontal centre
      needs 2 <= x <= 7, a vertical one 2 <= y <= 7, any other direction fails. */
  function IsValidShipPlacement(x: int, y: int, direction: byte): bool {
    if direction == HORIZONTAL then
      if x < 2 || x > 7 then false
      else if y < 0 || y >= BOARD_SIZE then false
      else true
    else if direction == VERTICAL then
      if x < 0 || x >= BOARD_SIZE then false
      else if y < 2 || y > 7 then false
      else true
    else
      false
  }

  /** Cell j of a ship centred on (x, y): j runs from the centre-2 end to the
      centre+2 end; `'-'` varies x, every other direction varies y. */
  function ShipCell(x: int, y: int, direction: byte, j: int): (int, int) {
    if direction == HORIZONTAL then (x - 2 + j, y) else (x, y - 2 + j)
  }

  /** A placement is accepted exactly when the direction is one of the two
      known ones and all five cells lie on the board. */
  lemma PlacementExact(x: int, y: int, direction: byte)
    ensures IsValidShipPlacement(x, y, direction) <==>
            (direction == HORIZONTAL || direction == VERTICAL) &&
            forall j | 0 <= j < SHIP_LENGTH :: OnBoard(ShipCell(x, y, direction, j).0, ShipCell(x, y, direction, j).1)
  {
    if direction == HORIZONTAL || direction == VERTICAL {
      if forall j | 0 <= j < SHIP_LENGTH :: OnBoard(ShipCell(x, y, direction, j).0, ShipCell(x, y, direction, j).1) {
        var first := ShipCell(x, y, direction, 0);
        var last := ShipCell(x, y, direction, 4);
        assert OnBoard(first.0, first.1);
        assert OnBoard(last.0, last.1);
      }
    }
  }

  /** The five cells of one ship are pairwise distinct. */
  lemma CellsDistinct(x: int, y: int, direction: byte, i: int, j: int)
    requires i != j
    ensures ShipCell(x, y, direction, i) != ShipCell(x, y, direction, j)
  {
  }

  /** The first j in [from, SHIP_LENGTH) whose cell is the bombed (bombX, bombY):
      the scan of damage_ships_at_cell, which stops at the first match. */
  function CellIndexFrom(x: int, y: int, direction: byte, bombX: int, bombY: int, from: nat): (r: Option<nat>)
    requires from <= SHIP_LENGTH
    decreases SHIP_LENGTH - from
    ensures r.Some? ==> from <= r.value < SHIP_LENGTH && ShipCell(x, y, direction, r.value) == (bombX, bombY)
    ensures r.None? <==> forall j | from <= j < SHIP_LENGTH :: ShipCell(x, y, direction, j) != (bombX, bombY)
  {
    if from == SHIP_LENGTH then None
    else if ShipCell(x, y, direction, from) == (bombX, bombY) then Some(from)
    else CellIndexFrom(x, y, direction, bombX, bombY, from + 1)
  }

  function CellIndex(x: int, y: int, direction: byte, bombX: int, bombY: int): (r: Option<nat>)
    ensures r.Some? ==> r.value < SHIP_LENGTH && ShipCell(x, y, direction, r.value) == (bombX, bombY)
    ensures r.None? <==> forall j | 0 <= j < SHIP_LENGTH :: ShipCell(x, y, direction, j) != (bombX, bombY)
  {
    CellIndexFrom(x, y, direction, bombX, bombY, 0)
  }

  /** A ship with a valid placement covers no off-board cell: a bomb outside
      the board never matches any of its cells. */
  lemma OffBoardNeverMatches(x: int, y: int, direction: byte, bombX: int, bombY: int)
    requires IsValidShipPlacement(x, y, direction)
    requires !OnBoard(bombX, bombY)
    ensures CellIndex(x, y, direction, bombX, bombY).None?
  {
    PlacementExact(x, y, direction);
  }
}

=== FILE: registry.dfy ===
/** Slot admission and removal, the name rules and registration
    (add_player, remove_player, is_name_taken, handle_registration). */
module Registry {
  import opened Defs
  import opened Geometry
  import opened State
  import opened Broadcast

  // ---------------------------------------------------------------- admission

  /** The first inactive slot at or after i, or -1. */
  function FindInactiveFrom(s: Slots, i: nat): (r: int)
    requires i <= MAX_CLIENTS
    decreases MAX_CLIENTS - i
    ensures r == -1 <==> forall k | i <= k < MAX_CLIENTS :: s[k].active
    ensures r != -1 ==> i <= r < MAX_CLIENTS && !s[r].active && forall k | i <= k < r :: s[k].active
  {
    if i == MAX_CLIENTS then -1
    else if !s[i].active then i
    else FindInactiveFrom(s, i + 1)
  }

  datatype Admission = Admission(state: GameState, index: int)

  /** add_player: take the lowest-index inactive slot for the new socket, or
      report -1 and change nothing when every slot is in use. */
  function AddPlayer(g: GameState, fd: nat): (r: Admission)
    ensures r.index == -1 <==> forall k | 0 <= k < MAX_CLIENTS :: g.players[k].active
    ensures r.index == -1 ==> r.state == g
    ensures r.index != -1 ==>
      && 0 <= r.index < MAX_CLIENTS
      && !g.players[r.index].active
      && (forall k | 0 <= k < r.index :: g.players[k].active)
      && r.state.players[r.index].active
      && !r.state.players[r.index].registered
      && r.state.players[r.index].fd == fd
      && (forall k | 0 <= k < MAX_CLIENTS && k != r.index :: r.state.players[k] == g.players[k])
      && r.state.playerCount == g.playerCount + 1
  {
    var index := FindInactiveFrom(g.players, 0);
    if index == -1 then Admission(g, -1)
    else
      var p := g.players[index].(fd := fd, active := true, registered := false);
      Admission(g.(players := g.players[index := p], playerCount := g.playerCount + 1), index)
  }

  /** A fresh, unregistered connection in a slot that was inactive, counted
      once, keeps the invariant. */
  lemma AdmitKeepsValid(g: GameState, i: nat, fd: nat)
    requires Valid(g) && i < MAX_CLIENTS && !g.players[i].active
    ensures Valid(GameState(g.players[i := g.players[i].(fd := fd, active := true, registered := false)], g.playerCount + 1))
  {
    var p := g.players[i].(fd := fd, active := true, registered := false);
    var h := GameState(g.players[i := p], g.playerCount + 1);
    assert ActiveSet(h.players) == ActiveSet(g.players) + {i};
    assert UniqueNames(h.players) by {
      forall a, b | 0 <= a < MAX_CLIENTS && 0 <= b < MAX_CLIENTS && a != b && InPlay(h.players[a]) && InPlay(h.players[b])
        ensures h.players[a].name != h.players[b].name
      {
        assert a != i && b != i;
      }
    }
  }

  lemma AddPlayerKeepsValid(g: GameState, fd: nat)
    requires Valid(g)
    ensures Valid(AddPlayer(g, fd).state)
  {
    var r := AddPlayer(g, fd);
    if r.index != -1 {
      var i := r.index as nat;
      AdmitKeepsValid(g, i, fd);
    }
  }

  /** The slot numbers below n. */
  function Range(n: nat): (r: set<nat>)
    ensures forall k: int :: k in r <==> 0 <= k < n
    ensures |r| == n
  {
    if n == 0 then {} else Range(n - 1) + {n - 1}
  }

  lemma {:induction false} SubsetSize(a: set<nat>, b: set<nat>)
    requires a <= b
    ensures |a| <= |b|
    decreases |a|
  {
    if a != {} {
      var x :| x in a;
      SubsetSize(a - {x}, b - {x});
    }
  }

  /** A set of numbers below n that holds all of them has n members. */
  lemma FullBelow(a: set<nat>, n: nat)
    requires forall j: nat | j in a :: j < n
    requires forall j: nat | j < n :: j in a
    ensures |a| == n
  {
    assert a == Range(n);
  }

  /** A set of numbers below n that misses one of them has fewer than n members. */
  lemma MissingBelow(a: set<nat>, n: nat, k: nat)
    requires forall j: nat | j in a :: j < n
    requires k < n && k !in a
    ensures |a| < n
  {
    var rest := Range(n) - {k};
    assert |rest| == n - 1;
    SubsetSize(a, rest);
  }

  lemma FullActiveSet(s: Slots)
    requires forall k | 0 <= k < MAX_CLIENTS :: s[k].active
    ensures |ActiveSet(s)| == MAX_CLIENTS
  {
    FullBelow(ActiveSet(s), MAX_CLIENTS);
  }

  lemma InactiveShrinksActiveSet(s: Slots, k: nat)
    requires k < MAX_CLIENTS && !s[k].active
    ensures |ActiveSet(s)| < MAX_CLIENTS
  {
    MissingBelow(ActiveSet(s), MAX_CLIENTS, k);
  }

  /** Every slot is active exactly when the active set has MAX_CLIENTS members. */
  lemma AllActiveIff(s: Slots)
    ensures (forall k | 0 <= k < MAX_CLIENTS :: s[k].active) <==> |ActiveSet(s)| == MAX_CLIENTS
  {
    if forall k | 0 <= k < MAX_CLIENTS :: s[k].active {
      FullActiveSet(s);
    } else {
      var k :| 0 <= k < MAX_CLIENTS && !s[k].active;
      InactiveShrinksActiveSet(s, k);
    }
  }

  /** Under the invariant, admission fails exactly when player_count has
      reached MAX_CLIENTS. */
  lemma AddPlayerFullIff(g: GameState, fd: nat)
    requires Valid(g)
    ensures AddPlayer(g, fd).index == -1 <==> g.playerCount == MAX_CLIENTS
  {
    AllActiveIff(g.players);
  }

  // ------------------------------------------------------------------ removal

  /** The first active slot at or after i whose socket is fd. */
  function FindActiveFd(s: Slots, fd: int, i: nat): (r: Option<nat>)
    requires i <= MAX_CLIENTS
    decreases MAX_CLIENTS - i
    ensures r.None? <==> forall k | i <= k < MAX_CLIENTS :: !(s[k].active && s[k].fd == fd)
    ensures r.Some? ==>
      && i <= r.value < MAX_CLIENTS && s[r.value].active && s[r.value].fd == fd
      && forall k | i <= k < r.value :: !(s[k].active && s[k].fd == fd)
  {
    if i == MAX_CLIENTS then None
    else if s[i].fd == fd && s[i].active then Some(i)
    else FindActiveFd(s, fd, i + 1)
  }

  /** Slot k is the first active slot holding socket fd. */
  predicate FirstHolder(s: Slots, fd: int, k: nat) {
    && k < MAX_CLIENTS && s[k].active && s[k].fd == fd
    && forall m | 0 <= m < k :: !(s[m].active && s[m].fd == fd)
  }

  /** The steps of remove_player: the first active slot holding fd
      announces `GG <name>` to everybody else if it was registered, then is
      retired and its socket closed; nothing happens if no active slot holds
      fd. RemovePlayer states what they achieve. */
  function Leave(g: GameState, fd: int, failing: Failures): Step {
    match FindActiveFd(g.players, fd, 0)
    case None => Step(g, [])
    case Some(i) =>
      var p := g.players[i];
      if p.registered then
        var b := BroadcastMessage(g, GG(p.name), fd, failing);
        Step(Retire(b.state, i), b.out + [Close(i, fd)])
      else
        Step(Retire(g, i), [Close(i, fd)])
  }

  /** remove_player. Only the leaver and slots whose GG send failed are
      evicted; the count stays in step; an unknown socket changes nothing. */
  function RemovePlayer(g: GameState, fd: int, failing: Failures): (r: Step)
    ensures Drift(r.state) == Drift(g)
    ensures AllRetire(g, r.state)
    ensures forall k | 0 <= k < MAX_CLIENTS :: r.state.players[k].ship == g.players[k].ship
    ensures (forall k | 0 <= k < MAX_CLIENTS :: !(g.players[k].active && g.players[k].fd == fd)) ==> r == Step(g, [])
    ensures forall k: nat | FirstHolder(g.players, fd, k) ::
      && !r.state.players[k].active && !r.state.players[k].registered
      && |r.out| > 0 && r.out[|r.out| - 1] == Close(k, fd)
      && (!g.players[k].registered ==> r == Step(Retire(g, k), [Close(k, fd)]))
    ensures forall k: nat | FirstHolder(g.players, fd, k) && g.players[k].registered ::
      && r.state.players[k] == Evict(g.players[k])
      && (forall m | 0 <= m < MAX_CLIENTS && m != k ::
            r.state.players[m] == AfterSend(g.players[m], m, GG(g.players[k].name), fd, failing))
      && (failing == {} ==>
            r == Step(Retire(g, k), Fanout(g.players, GG(g.players[k].name), fd) + [Close(k, fd)]))
  {
    LeaveFrame(g, fd, failing);
    forall k: nat | FirstHolder(g.players, fd, k)
      ensures var r := Leave(g, fd, failing);
        && !r.state.players[k].active && !r.state.players[k].registered
        && |r.out| > 0 && r.out[|r.out| - 1] == Close(k, fd)
        && (!g.players[k].registered ==> r == Step(Retire(g, k), [Close(k, fd)]))
    {
      LeaveFirst(g, fd, failing, k);
    }
    forall k: nat | FirstHolder(g.players, fd, k) && g.players[k].registered
      ensures var r := Leave(g, fd, failing);
        && r.state.players[k] == Evict(g.players[k])
        && (forall m | 0 <= m < MAX_CLIENTS && m != k ::
              r.state.players[m] == AfterSend(g.players[m], m, GG(g.players[k].name), fd, failing))
        && (failing == {} ==>
              r == Step(Retire(g, k), Fanout(g.players, GG(g.players[k].name), fd) + [Close(k, fd)]))
    {
      LeaveRegistered(g, fd, failing, k);
    }
    Leave(g, fd, failing)
  }

  lemma LeaveFrame(g: GameState, fd: int, failing: Failures)
    ensures var r := Leave(g, fd, failing);
      && Drift(r.state) == Drift(g)
      && AllRetire(g, r.state)
      && (forall k | 0 <= k < MAX_CLIENTS :: r.state.players[k].ship == g.players[k].ship)
      && ((forall k | 0 <= k < MAX_CLIENTS :: !(g.players[k].active && g.players[k].fd == fd)) ==> r == Step(g, []))
  {
    match FindActiveFd(g.players, fd, 0)
    case None =>
    case Some(i) =>
      if g.players[i].registered {
        BroadcastRetires(g, GG(g.players[i].name), fd, failing);
      }
  }

  lemma LeaveFirst(g: GameState, fd: int, failing: Failures, k: nat)
    requires FirstHolder(g.players, fd, k)
    ensures var r := Leave(g, fd, failing);
      && !r.state.players[k].active && !r.state.players[k].registered
      && |r.out| > 0 && r.out[|r.out| - 1] == Close(k, fd)
      && (!g.players[k].registered ==> r == Step(Retire(g, k), [Close(k, fd)]))
  {
    assert FindActiveFd(g.players, fd, 0) == Some(k);
  }

  lemma LeaveRegistered(g: GameState, fd: int, failing: Failures, k: nat)
    requires FirstHolder(g.players, fd, k) && g.players[k].registered
    ensures var r := Leave(g, fd, failing);
      && r.state.players[k] == Evict(g.players[k])
      && (forall m | 0 <= m < MAX_CLIENTS && m != k ::
            r.state.players[m] == AfterSend(g.players[m], m, GG(g.players[k].name), fd, failing))
      && (failing == {} ==>
            r == Step(Retire(g, k), Fanout(g.players, GG(g.players[k].name), fd) + [Close(k, fd)]))
  {
    assert FindActiveFd(g.players, fd, 0) == Some(k);
    if failing == {} {
      BroadcastFromNoFailure(g, GG(g.players[k].name), fd, 0);
    }
  }

  lemma RemovePlayerKeepsValid(g: GameState, fd: int, failing: Failures)
    requires Valid(g)
    ensures Valid(RemovePlayer(g, fd, failing).state)
  {
    var r := RemovePlayer(g, fd, failing);
    RetiringKeepsValid(g, r.state);
  }

  /** The leaving registered player's GG reaches every other registered
      player whose socket differs and whose send succeeds, and never the
      leaving slot itself. */
  lemma RemovePlayerAnnounces(g: GameState, fd: int, failing: Failures, i: nat)
    requires FirstHolder(g.players, fd, i) && g.players[i].registered
    ensures Send(i, GG(g.players[i].name)) !in RemovePlayer(g, fd, failing).out
    ensures forall k | 0 <= k < MAX_CLIENTS && InPlay(g.players[k]) && g.players[k].fd != fd
                && (k, GG(g.players[i].name)) !in failing ::
      Send(k, GG(g.players[i].name)) in RemovePlayer(g, fd, failing).out
  {
    var msg := GG(g.players[i].name);
    var b := BroadcastMessage(g, msg, fd, failing);
    BroadcastOutbox(g, msg, fd, failing);
    assert FindActiveFd(g.players, fd, 0) == Some(i);
    assert RemovePlayer(g, fd, failing).out == b.out + [Close(i, fd)];
    forall k | 0 <= k < MAX_CLIENTS && InPlay(g.players[k]) && g.players[k].fd != fd && (k, msg) !in failing
      ensures Send(k, msg) in RemovePlayer(g, fd, failing).out
    {
      assert Expected(g, msg, failing, k) == Send(k, msg);
    }
  }

  /** remove_player never writes to the socket it is removing: the GG goes
      to the others only. */
  lemma RemovePlayerSilentToLeaver(g: GameState, fd: int, failing: Failures)
    ensures forall k, m | 0 <= k < MAX_CLIENTS && g.players[k].fd == fd ::
      Send(k, m) !in RemovePlayer(g, fd, failing).out
  {
    var r := RemovePlayer(g, fd, failing);
    match FindActiveFd(g.players, fd, 0)
    case None =>
    case Some(i) =>
      if g.players[i].registered {
        var msg := GG(g.players[i].name);
        var b := BroadcastMessage(g, msg, fd, failing);
        BroadcastOutbox(g, msg, fd, failing);
        assert r.out == b.out + [Close(i, fd)];
      }
  }

  /** Removing the same socket twice does nothing the second time, as long as
      at most one active slot held it. */
  lemma RemovePlayerIdempotent(g: GameState, fd: int, failing: Failures)
    requires forall a, b | 0 <= a < MAX_CLIENTS && 0 <= b < MAX_CLIENTS && a != b ::
      !(g.players[a].active && g.players[a].fd == fd && g.players[b].active && g.players[b].fd == fd)
    ensures var once := RemovePlayer(g, fd, failing);
      RemovePlayer(once.state, fd, failing) == Step(once.state, [])
  {
    var once := RemovePlayer(g, fd, failing);
    forall k | 0 <= k < MAX_CLIENTS
      ensures !(once.state.players[k].active && once.state.players[k].fd == fd)
    {
      assert Retires(g.players[k], once.state.players[k]);
      if g.players[k].active && g.players[k].fd == fd {
        assert FindActiveFd(g.players, fd, 0) == Some(k);
      }
    }
  }

  /** Admitting a socket and removing it again restores the roster: the same
      slots are active and player_count is back where it was. */
  lemma AddThenRemove(g: GameState, fd: nat, failing: Failures)
    requires forall k | 0 <= k < MAX_CLIENTS :: !(g.players[k].active && g.players[k].fd == fd)
    ensures var a := AddPlayer(g, fd);
      a.index != -1 ==>
        var r := RemovePlayer(a.state, fd, failing);
        && r.out == [Close(a.index as nat, fd)]
        && ActiveSet(r.state.players) == ActiveSet(g.players)
        && r.state.playerCount == g.playerCount
  {
    var a := AddPlayer(g, fd);
    if a.index != -1 {
      var i := a.index as nat;
      var p := g.players[i].(fd := fd, active := true, registered := false);
      var h := GameState(g.players[i := p], g.playerCount + 1);
      assert a.state == h;
      RemoveUnregistered(h, i, fd, failing);
      SameActiveSet(h.players[i := Evict(p)], g.players);
    }
  }

  /** remove_player on an unregistered slot that is the first active holder
      of the socket: evict it and close, nothing else. */
  lemma RemoveUnregistered(h: GameState, i: nat, fd: int, failing: Failures)
    requires FirstHolder(h.players, fd, i) && !h.players[i].registered
    ensures RemovePlayer(h, fd, failing) == Step(Retire(h, i), [Close(i, fd)])
  {
    assert FindActiveFd(h.players, fd, 0) == Some(i);
  }

  // -------------------------------------------------------------- name rules

  /** A name byte is a letter, a digit or `'-'`. */
  predicate IsNameByte(b: byte) {
    (97 <= b <= 122) || (65 <= b <= 90) || (48 <= b <= 57) || b == 45
  }

  predicate NameChars(name: Name) {
    forall i | 0 <= i < |name| :: IsNameByte(name[i])
  }

  /** Whitespace as `%s` sees it: space, \t, \n, \v, \f, \r. */
  predicate IsSpace(b: byte) {
    b == 32 || (9 <= b <= 13)
  }

  /** What `%20s` can yield: 1 to 20 bytes, none of them NUL or whitespace. */
  type Token = s: seq<byte> | 0 < |s| <= MAX_NAME_LENGTH - 1 && forall i | 0 <= i < |s| :: s[i] != 0 && !IsSpace(s[i])
    witness [65]

  /** The four values a successful `REG %20s %d %d %c` scan delivers. */
  datatype RegArgs = RegArgs(name: Token, x: Int32, y: Int32, direction: byte)

  /** Some other active, registered slot already uses the name. */
  predicate HeldByOther(g: GameState, name: Name, exclude: int) {
    exists k | 0 <= k < MAX_CLIENTS :: k != exclude && InPlay(g.players[k]) && g.players[k].name == name
  }

  function NameTakenFrom(g: GameState, name: Name, exclude: int, i: nat): (r: bool)
    requires i <= MAX_CLIENTS
    decreases MAX_CLIENTS - i
    ensures r <==> exists k | i <= k < MAX_CLIENTS :: k != exclude && InPlay(g.players[k]) && g.players[k].name == name
  {
    if i == MAX_CLIENTS then false
    else if i != exclude && g.players[i].active && g.players[i].registered && g.players[i].name == name then true
    else NameTakenFrom(g, name, exclude, i + 1)
  }

  /** is_name_taken: only active, registered slots other than the caller's
      own count, so names of removed players are free again. */
  function IsNameTaken(g: GameState, name: Name, exclude: int): (r: bool)
    ensures r <==> HeldByOther(g, name, exclude)
  {
    NameTakenFrom(g, name, exclude, 0)
  }

  // ------------------------------------------------------------ registration

  /** The codes of handle_registration: 0, 1 and 2 in the source. */
  datatype RegCode = RegInvalid | RegWelcome | RegTaken

  datatype Registration = Registration(code: RegCode, state: GameState)

  /** The slot after a successful registration under the given arguments. */
  function Registered(p: Player, a: RegArgs): Player {
    p.(name := a.name, ship := Ship(a.name, a.x, a.y, a.direction, NoDamage, 0), registered := true)
  }

  /** handle_registration, with the scan abstracted to `args` (None when
      `REG %20s %d %d %c` does not match four fields). The checks run in the
      source's order: syntax, name bytes, name taken, placement. */
  function HandleRegistration(g: GameState, slot: nat, args: Option<RegArgs>): (r: Registration)
    requires slot < MAX_CLIENTS
    ensures r.code == RegTaken <==>
      args.Some? && NameChars(args.value.name) && HeldByOther(g, args.value.name, slot)
    ensures r.code == RegWelcome <==>
      && args.Some? && NameChars(args.value.name) && !HeldByOther(g, args.value.name, slot)
      && IsValidShipPlacement(args.value.x, args.value.y, args.value.direction)
    ensures r.code != RegWelcome ==> r.state == g
    ensures r.code == RegWelcome ==>
      var p := r.state.players[slot];
      && p.registered && p.name == args.value.name && p.ship.owner == args.value.name
      && p.ship.x == args.value.x && p.ship.y == args.value.y && p.ship.direction == args.value.direction
      && p.ship.totalDamage == 0 && (forall j | 0 <= j < SHIP_LENGTH :: !p.ship.damaged[j])
      && p.fd == g.players[slot].fd && p.active == g.players[slot].active
      && (forall k | 0 <= k < MAX_CLIENTS && k != slot :: r.state.players[k] == g.players[k])
      && r.state.playerCount == g.playerCount
  {
    match args
    case None => Registration(RegInvalid, g)
    case Some(a) =>
      if !NameChars(a.name) then Registration(RegInvalid, g)
      else if IsNameTaken(g, a.name, slot) then Registration(RegTaken, g)
      else if !IsValidShipPlacement(a.x, a.y, a.direction) then Registration(RegInvalid, g)
      else Registration(RegWelcome, g.(players := g.players[slot := Registered(g.players[slot], a)]))
  }

  lemma HandleRegistrationKeepsValid(g: GameState, slot: nat, args: Option<RegArgs>)
    requires slot < MAX_CLIENTS
    requires Valid(g)
    ensures Valid(HandleRegistration(g, slot, args).state)
  {
    var r := HandleRegistration(g, slot, args);
    if r.code == RegWelcome {
      RegisterKeepsValid(g, slot, args.value);
      assert r.state == g.(players := g.players[slot := Registered(g.players[slot], args.value)]);
    }
  }

  /** Registering a name nobody else in play holds, with a valid placement,
      keeps the invariant. */
  lemma RegisterKeepsValid(g: GameState, slot: nat, a: RegArgs)
    requires slot < MAX_CLIENTS && Valid(g)
    requires !HeldByOther(g, a.name, slot) && IsValidShipPlacement(a.x, a.y, a.direction)
    ensures Valid(g.(players := g.players[slot := Registered(g.players[slot], a)]))
  {
    var h := g.(players := g.players[slot := Registered(g.players[slot], a)]);
    assert ActiveSet(h.players) == ActiveSet(g.players);
    assert CountTrue(NoDamage) == 0;
    assert Placed(h.players[slot]);
    assert UniqueNames(h.players) by {
      forall i, j | 0 <= i < MAX_CLIENTS && 0 <= j < MAX_CLIENTS && i != j && InPlay(h.players[i]) && InPlay(h.players[j])
        ensures h.players[i].name != h.players[j].name
      {
        if i == slot {
          assert h.players[j] == g.players[j];
        } else if j == slot {
          assert h.players[i] == g.players[i];
        } else {
          assert h.players[i] == g.players[i] && h.players[j] == g.players[j];
        }
      }
    }
  }
}

=== FILE: scenarios.dfy ===
/** Concrete exchanges of the protocol, stated over any registry that
    satisfies the invariant. */
module Scenarios {
  import opened Defs
  import opened Geometry
  import opened State
  import opened Broadcast
  import opened Registry
  import opened Combat
  import opened Framer
  import opened Session

  const ANN1: Token := [65, 110, 110, 49]
  const BOB: Token := [66, 111, 98]

  /** `REG Ann1 4 4 -` on one connection and then `REG Ann1 4 4 |` on
      another: WELCOME, then TAKEN, as long as Ann1's own JOIN was delivered
      (a failed send would have evicted her first). */
  lemma WelcomeThenTaken(g: GameState, a: nat, b: nat, l1: Line, l2: Line, sc: Scanner, failing: Failures)
    requires Valid(g) && a < MAX_CLIENTS && b < MAX_CLIENTS && a != b
    requires g.players[a].active && !g.players[a].registered && !g.players[b].registered
    requires REG_PREFIX <= l1 && REG_PREFIX <= l2
    requires sc.reg(l1) == Some(RegArgs(ANN1, 4, 4, HORIZONTAL))
    requires sc.reg(l2) == Some(RegArgs(ANN1, 4, 4, VERTICAL))
    requires !HeldByOther(g, ANN1, a)
    requires (a, Join(ANN1)) !in failing
    ensures var first := Dispatch(g, a, l1, sc, failing);
      && first.reply == Some(Welcome)
      && Dispatch(first.state, b, l2, sc, failing).reply == Some(Taken)
  {
    assert IsValidShipPlacement(4, 4, HORIZONTAL);
    assert NameChars(ANN1);
    RegistrationReplies(g, a, l1, sc, failing);
    var first := Dispatch(g, a, l1, sc, failing);
    var reg := HandleRegistration(g, a, sc.reg(l1));
    assert first.state == BroadcastMessage(reg.state, Join(ANN1), -1, failing).state;
    assert first.state.players[a] == reg.state.players[a];
    assert first.state.players[b].registered == g.players[b].registered;
    assert HeldByOther(first.state, ANN1, b);
    RegistrationReplies(first.state, b, l2, sc, failing);
  }

  /** `REG Bob 1 0 -`: the ship would reach x = -1, so the answer is
      INVALID, unless the name is taken, which is checked first. */
  lemma BobTooCloseToEdge(g: GameState, slot: nat, line: Line, sc: Scanner, failing: Failures)
    requires slot < MAX_CLIENTS
    requires REG_PREFIX <= line && !g.players[slot].registered
    requires sc.reg(line) == Some(RegArgs(BOB, 1, 0, HORIZONTAL))
    ensures var r := Dispatch(g, slot, line, sc, failing);
      && (r.reply == Some(Invalid) <==> !HeldByOther(g, BOB, slot))
      && (r.reply == Some(Taken) <==> HeldByOther(g, BOB, slot))
      && r.state == g && r.out == []
  {
    assert !IsValidShipPlacement(1, 0, HORIZONTAL);
    assert NameChars(BOB);
    RegistrationReplies(g, slot, line, sc, failing);
  }

  /** `BOMB 0 0` where no ship in play has an undamaged cell at (0, 0):
      nothing changes, the attacker gets no direct reply, and one
      `MISS <attacker> 0 0` goes to every registered player, the attacker
      included. */
  lemma MissSeenByAll(g: GameState, slot: nat, line: Line, sc: Scanner)
    requires slot < MAX_CLIENTS && Valid(g)
    requires BOMB_PREFIX <= line && g.players[slot].registered
    requires sc.bomb(line) == Some(BombArgs(0, 0))
    requires forall k | 0 <= k < MAX_CLIENTS :: !Doomed(g.players[k])
    requires !SomeFreshFrom(g.players, 0, 0, 0)
    ensures var r := Dispatch(g, slot, line, sc, {});
      var miss := Miss(g.players[slot].name, 0, 0);
      && r.reply == None && r.state == g
      && r.out == Fanout(g.players, miss, -1)
      && (g.players[slot].active ==> Send(slot, miss) in r.out)
  {
    var miss := Miss(g.players[slot].name, 0, 0);
    assert line[0] == 66;
    assert !(REG_PREFIX <= line);
    QuietBomb(g, slot, 0, 0);
    if g.players[slot].active {
      FanoutFromReaches(g.players, miss, -1, 0, slot);
    }
  }

  /** A 101-byte line with no terminator: the connection is removed, and
      nothing is ever written back to it. */
  lemma LongLineNoReply(g: GameState, slot: nat, line: Line, sc: Scanner, failing: Failures)
    requires slot < MAX_CLIENTS
    requires |line| == MAX_MESSAGE_LENGTH + 1 && NEWLINE !in line
    ensures var r := HandleClient(g, slot, line, sc, failing);
      && r == RemovePlayer(g, g.players[slot].fd, failing)
      && forall m :: Send(slot, m) !in r.out
  {
    assert line[..MAX_MESSAGE_LENGTH] + line[MAX_MESSAGE_LENGTH..] == line;
    assert forall i | 0 <= i < MAX_MESSAGE_LENGTH :: line[..MAX_MESSAGE_LENGTH][i] == line[i];
    OverlongDisconnects(g, slot, line[..MAX_MESSAGE_LENGTH], line[MAX_MESSAGE_LENGTH..], sc, failing);
    RemovePlayerSilentToLeaver(g, g.players[slot].fd, failing);
  }
}

=== FILE: session.dfy ===
/** handle_client: one thread per connection. Every complete line is
    dispatched on its command word, replies go straight back to the
    connection's own socket, and the connection ends with remove_player. */
module Session {
  import opened Defs
  import opened Geometry
  import opened State
  import opened Broadcast
  import opened Registry
  import opened Combat
  import opened Framer

  /** "REG " and "BOMB ", compared as strncmp does over their whole length. */
  const REG_PREFIX: seq<byte> := [82, 69, 71, 32]
  const BOMB_PREFIX: seq<byte> := [66, 79, 77, 66, 32]

  /** The sscanf calls of handle_registration and handle_bomb: what each
      extracts from a line, or None when the pattern does not match. */
  datatype Scanner = Scanner(reg: Line -> Option<RegArgs>, bomb: Line -> Option<BombArgs>)

  /** One processed line: the state after it, the direct reply to the
      connection's own socket (if any), and the broadcast outbox. */
  datatype Outcome = Outcome(state: GameState, reply: Option<Msg>, out: seq<Effect>)

  /** h is g with no socket changed and no slot newly active. */
  predicate Shrinks(g: GameState, h: GameState) {
    forall k | 0 <= k < MAX_CLIENTS ::
      h.players[k].fd == g.players[k].fd && (h.players[k].active ==> g.players[k].active)
  }

  /** Only `slot` may hold its own socket among the active slots. */
  predicate SoleHolder(g: GameState, slot: nat)
    requires slot < MAX_CLIENTS
  {
    forall k | 0 <= k < MAX_CLIENTS && g.players[k].active && g.players[k].fd == g.players[slot].fd :: k == slot
  }

  /** The condition under which REG is welcomed, with the scanned arguments. */
  predicate Welcomes(g: GameState, slot: nat, a: Option<RegArgs>) {
    && a.Some? && NameChars(a.value.name) && !HeldByOther(g, a.value.name, slot)
    && IsValidShipPlacement(a.value.x, a.value.y, a.value.direction)
  }

  /** The condition under which REG is answered TAKEN. */
  predicate Refuses(g: GameState, slot: nat, a: Option<RegArgs>) {
    a.Some? && NameChars(a.value.name) && HeldByOther(g, a.value.name, slot)
  }

  /** The processing of one complete line for the player in `slot`. */
  function Dispatch(g: GameState, slot: nat, line: Line, sc: Scanner, failing: Failures): Outcome
    requires slot < MAX_CLIENTS
  {
    if REG_PREFIX <= line then
      if g.players[slot].registered then Outcome(g, Some(Invalid), [])
      else
        var reg := HandleRegistration(g, slot, sc.reg(line));
        match reg.code
        case RegWelcome =>
          var b := BroadcastMessage(reg.state, Join(reg.state.players[slot].name), -1, failing);
          Outcome(b.state, Some(Welcome), b.out)
        case RegTaken => Outcome(g, Some(Taken), [])
        case RegInvalid => Outcome(g, Some(Invalid), [])
    else if BOMB_PREFIX <= line then
      if g.players[slot].registered then
        var bomb := HandleBomb(g, slot, sc.bomb(line), failing);
        Outcome(bomb.step.state, if bomb.ok then None else Some(Invalid), bomb.step.out)
      else Outcome(g, None, [])
    else Outcome(g, Some(Invalid), [])
  }

  /** No line opens a socket or changes one, and player_count stays in
      step with the active slots. */
  lemma DispatchFrame(g: GameState, slot: nat, line: Line, sc: Scanner, failing: Failures)
    requires slot < MAX_CLIENTS
    ensures Drift(Dispatch(g, slot, line, sc, failing).state) == Drift(g)
    ensures Shrinks(g, Dispatch(g, slot, line, sc, failing).state)
  {
    if REG_PREFIX <= line && !g.players[slot].registered {
      var reg := HandleRegistration(g, slot, sc.reg(line));
      if reg.code == RegWelcome {
        var b := BroadcastMessage(reg.state, Join(reg.state.players[slot].name), -1, failing);
        assert Dispatch(g, slot, line, sc, failing).state == b.state;
        RegistrationFrame(g, slot, sc.reg(line));
        BroadcastRetires(reg.state, Join(reg.state.players[slot].name), -1, failing);
        RetiringShrinks(reg.state, b.state);
      }
    } else if !(REG_PREFIX <= line) && BOMB_PREFIX <= line && g.players[slot].registered {
      var bomb := HandleBomb(g, slot, sc.bomb(line), failing);
      assert Dispatch(g, slot, line, sc, failing).state == bomb.step.state;
      assert AllRetire(g, bomb.step.state);
      RetiringShrinks(g, bomb.step.state);
    }
  }

  /** What a line does to the slots that every send reaches: a line that is
      not a BOMB touches none but the connection's own slot, and a
      registered player's BOMB that scans damages and sweeps exactly as on
      a network where nothing fails. */
  lemma DispatchReached(g: GameState, slot: nat, line: Line, sc: Scanner, failing: Failures)
    requires slot < MAX_CLIENTS
    ensures var r := Dispatch(g, slot, line, sc, failing);
      !(BOMB_PREFIX <= line) ==>
        forall k | 0 <= k < MAX_CLIENTS && k != slot && Reached(failing, k) :: r.state.players[k] == g.players[k]
    ensures var r := Dispatch(g, slot, line, sc, failing);
      BOMB_PREFIX <= line && g.players[slot].registered && sc.bomb(line).Some? ==>
        var a := sc.bomb(line).value;
        forall k | 0 <= k < MAX_CLIENTS && Reached(failing, k) :: r.state.players[k] == Swept(Bombed(g.players[k], a.x, a.y))
  {
    if BOMB_PREFIX <= line {
      assert line[0] == 66;
      assert !(REG_PREFIX <= line);
    } else if REG_PREFIX <= line && !g.players[slot].registered {
      var reg := HandleRegistration(g, slot, sc.reg(line));
      if reg.code == RegWelcome {
        var msg := Join(reg.state.players[slot].name);
        var b := BroadcastMessage(reg.state, msg, -1, failing);
        assert Dispatch(g, slot, line, sc, failing).state == b.state;
      }
    }
  }

  lemma RegistrationFrame(g: GameState, slot: nat, args: Option<RegArgs>)
    requires slot < MAX_CLIENTS
    ensures Drift(HandleRegistration(g, slot, args).state) == Drift(g)
    ensures Shrinks(g, HandleRegistration(g, slot, args).state)
  {
    assert ActiveSet(HandleRegistration(g, slot, args).state.players) == ActiveSet(g.players);
  }

  lemma RetiringShrinks(g: GameState, h: GameState)
    requires AllRetire(g, h)
    ensures Shrinks(g, h)
  {
    forall k | 0 <= k < MAX_CLIENTS
      ensures h.players[k].fd == g.players[k].fd && (h.players[k].active ==> g.players[k].active)
    {
      assert Retires(g.players[k], h.players[k]);
    }
  }

  /** The reply table: unknown commands and a second REG get INVALID, BOMB
      from an unregistered player gets nothing, and a registered player's
      BOMB is answered (INVALID) only when its two numbers do not scan. */
  lemma DispatchTable(g: GameState, slot: nat, line: Line, sc: Scanner, failing: Failures)
    requires slot < MAX_CLIENTS
    ensures var r := Dispatch(g, slot, line, sc, failing);
      && (!(REG_PREFIX <= line) && !(BOMB_PREFIX <= line) ==> r == Outcome(g, Some(Invalid), []))
      && (REG_PREFIX <= line && g.players[slot].registered ==> r == Outcome(g, Some(Invalid), []))
      && (BOMB_PREFIX <= line && !g.players[slot].registered ==> r == Outcome(g, None, []))
      && (BOMB_PREFIX <= line && g.players[slot].registered ==>
            && (r.reply == Some(Invalid) <==> sc.bomb(line).None?)
            && (r.reply == None <==> sc.bomb(line).Some?)
            && (sc.bomb(line).None? ==> r.state == g && r.out == []))
  {
    if BOMB_PREFIX <= line {
      assert line[0] == 66;
      assert !(REG_PREFIX <= line);
    }
  }

  /** REG from an unregistered player is always answered: WELCOME exactly
      when the name is well-formed, free and the ship fits, TAKEN exactly
      when the well-formed name is held by another slot, INVALID otherwise;
      only WELCOME changes anything. */
  lemma RegistrationReplies(g: GameState, slot: nat, line: Line, sc: Scanner, failing: Failures)
    requires slot < MAX_CLIENTS
    requires REG_PREFIX <= line && !g.players[slot].registered
    ensures var r := Dispatch(g, slot, line, sc, failing);
      && (r.reply == Some(Welcome) <==> Welcomes(g, slot, sc.reg(line)))
      && (r.reply == Some(Taken) <==> Refuses(g, slot, sc.reg(line)))
      && (r.reply == Some(Invalid) <==> !Welcomes(g, slot, sc.reg(line)) && !Refuses(g, slot, sc.reg(line)))
      && (r.reply != Some(Welcome) ==> r.state == g && r.out == [])
  {
  }

  /** After WELCOME the slot holds the scanned name and ship, and `JOIN
      <name>` goes to every active registered player, the newcomer included,
      whose send succeeds; every other outbox entry closes a failed socket. */
  lemma JoinAnnounced(g: GameState, slot: nat, line: Line, sc: Scanner, failing: Failures)
    requires slot < MAX_CLIENTS && Valid(g)
    requires REG_PREFIX <= line && !g.players[slot].registered
    requires Welcomes(g, slot, sc.reg(line))
    ensures var r := Dispatch(g, slot, line, sc, failing);
      var a := sc.reg(line).value;
      && r.reply == Some(Welcome)
      && r.state.players[slot].name == a.name
      && r.state.players[slot].ship == Ship(a.name, a.x, a.y, a.direction, NoDamage, 0)
      && (forall n | 0 <= n < |r.out| :: r.out[n].Send? ==> r.out[n].msg == Join(a.name))
      && (forall k | 0 <= k < MAX_CLIENTS && g.players[k].active && (g.players[k].registered || k == slot)
            && (k, Join(a.name)) !in failing :: Send(k, Join(a.name)) in r.out)
  {
    var a := sc.reg(line).value;
    var reg := HandleRegistration(g, slot, sc.reg(line));
    var msg := Join(a.name);
    BroadcastOutbox(reg.state, msg, -1, failing);
    var r := Dispatch(g, slot, line, sc, failing);
    assert r.out == BroadcastMessage(reg.state, msg, -1, failing).out;
    assert r.state.players[slot] == AfterSend(reg.state.players[slot], slot, msg, -1, failing);
    assert reg.state.players[slot].ship == Ship(a.name, a.x, a.y, a.direction, NoDamage, 0);
    forall k | 0 <= k < MAX_CLIENTS && g.players[k].active && (g.players[k].registered || k == slot)
        && (k, msg) !in failing
      ensures Send(k, msg) in r.out
    {
      assert IsRecipient(reg.state.players[k], -1);
      assert Expected(reg.state, msg, failing, k) == Send(k, msg);
    }
    forall n | 0 <= n < |r.out| && r.out[n].Send?
      ensures r.out[n].msg == msg
    {
      assert Delivery(reg.state, msg, -1, failing, r.out[n]);
    }
  }

  lemma DispatchKeepsValid(g: GameState, slot: nat, line: Line, sc: Scanner, failing: Failures)
    requires slot < MAX_CLIENTS && Valid(g)
    ensures Valid(Dispatch(g, slot, line, sc, failing).state)
  {
    if REG_PREFIX <= line && !g.players[slot].registered {
      var reg := HandleRegistration(g, slot, sc.reg(line));
      HandleRegistrationKeepsValid(g, slot, sc.reg(line));
      if reg.code == RegWelcome {
        BroadcastKeepsValid(reg.state, Join(reg.state.players[slot].name), -1, failing);
      }
    } else if BOMB_PREFIX <= line && g.players[slot].registered {
      HandleBombKeepsValid(g, slot, sc.bomb(line), failing);
    }
  }

  /** The direct reply, sent on the connection's own socket. */
  function Reply(slot: nat, reply: Option<Msg>): seq<Effect> {
    if reply.Some? then [Send(slot, reply.value)] else []
  }

  /** The dispatch of a sequence of complete lines, each line's reply ahead
      of the broadcasts it causes. Reading stops once the slot has been
      retired: every path that retires a slot also closes its socket, so the
      next recv fails and no further line is read. */
  function RunLines(g: GameState, slot: nat, lines: seq<Line>, sc: Scanner, failing: Failures): (r: Step)
    requires slot < MAX_CLIENTS
    decreases |lines|
    ensures Drift(r.state) == Drift(g)
    ensures Shrinks(g, r.state)
  {
    if |lines| == 0 || !g.players[slot].active then Step(g, [])
    else
      var d := Dispatch(g, slot, lines[0], sc, failing);
      DispatchFrame(g, slot, lines[0], sc, failing);
      var rest := RunLines(d.state, slot, lines[1..], sc, failing);
      Step(rest.state, Reply(slot, d.reply) + d.out + rest.out)
  }

  lemma {:induction false} RunLinesKeepsValid(g: GameState, slot: nat, lines: seq<Line>, sc: Scanner, failing: Failures)
    requires slot < MAX_CLIENTS && Valid(g)
    ensures Valid(RunLines(g, slot, lines, sc, failing).state)
    decreases |lines|
  {
    if |lines| > 0 && g.players[slot].active {
      var d := Dispatch(g, slot, lines[0], sc, failing);
      DispatchKeepsValid(g, slot, lines[0], sc, failing);
      RunLinesKeepsValid(d.state, slot, lines[1..], sc, failing);
    }
  }

  /** A whole connection: the byte stream `input` is framed, complete lines
      are dispatched while the slot is live, and however reading ends (peer
      closed, recv failed, a line too long, or the socket closed by the
      server) the socket read at thread start is removed. */
  function HandleClient(g: GameState, slot: nat, input: seq<byte>, sc: Scanner, failing: Failures): (r: Step)
    requires slot < MAX_CLIENTS
    ensures Drift(r.state) == Drift(g)
    ensures Shrinks(g, r.state)
    ensures SoleHolder(g, slot) ==>
      forall k | 0 <= k < MAX_CLIENTS :: !(r.state.players[k].active && r.state.players[k].fd == g.players[slot].fd)
  {
    var fd := g.players[slot].fd;
    var run := RunLines(g, slot, Frame(input).lines, sc, failing);
    var leave := RemovePlayer(run.state, fd, failing);
    assert SoleHolder(g, slot) && run.state.players[slot].active && run.state.players[slot].fd == fd ==>
      FindActiveFd(run.state.players, fd, 0) == Some(slot);
    assert forall k | 0 <= k < MAX_CLIENTS :: Retires(run.state.players[k], leave.state.players[k]);
    Step(leave.state, run.out + leave.out)
  }

  lemma HandleClientKeepsValid(g: GameState, slot: nat, input: seq<byte>, sc: Scanner, failing: Failures)
    requires slot < MAX_CLIENTS && Valid(g)
    ensures Valid(HandleClient(g, slot, input, sc, failing).state)
  {
    var run := RunLines(g, slot, Frame(input).lines, sc, failing);
    RunLinesKeepsValid(g, slot, Frame(input).lines, sc, failing);
    RemovePlayerKeepsValid(run.state, g.players[slot].fd, failing);
  }

  /** A stream that yields no complete line does nothing but remove the player. */
  lemma NoLinesOnlyLeaves(g: GameState, slot: nat, input: seq<byte>, sc: Scanner, failing: Failures)
    requires slot < MAX_CLIENTS && Frame(input).lines == []
    ensures HandleClient(g, slot, input, sc, failing) == RemovePlayer(g, g.players[slot].fd, failing)
  {
    var leave := RemovePlayer(g, g.players[slot].fd, failing);
    HandleClientVia(g, slot, input, sc, failing, Step(g, []));
    EmptyPrefix(leave);
  }

  /** A complete line at the head of the stream is dispatched before
      anything else happens, and the connection carries on from the state
      it leaves. */
  lemma LineDispatched(g: GameState, slot: nat, l: Line, rest: seq<byte>, sc: Scanner, failing: Failures)
    requires slot < MAX_CLIENTS && CompleteLine(l) && g.players[slot].active
    ensures var d := Dispatch(g, slot, l, sc, failing);
      var tail := HandleClient(d.state, slot, rest, sc, failing);
      HandleClient(g, slot, l + rest, sc, failing) == Step(tail.state, Reply(slot, d.reply) + d.out + tail.out)
  {
    var d := Dispatch(g, slot, l, sc, failing);
    var lines := Frame(rest).lines;
    var fd := g.players[slot].fd;
    assert d.state.players[slot].fd == fd by {
      DispatchFrame(g, slot, l, sc, failing);
    }
    var run := RunLines(d.state, slot, lines, sc, failing);
    var front := Reply(slot, d.reply) + d.out;
    assert RunLines(g, slot, Frame(l + rest).lines, sc, failing) == Step(run.state, front + run.out) by {
      FrameCompleteLine(l, rest);
      assert ([l] + lines)[1..] == lines;
    }
    var leave := RemovePlayer(run.state, fd, failing);
    var tail := HandleClient(d.state, slot, rest, sc, failing);
    assert tail == Step(leave.state, run.out + leave.out) by {
      HandleClientVia(d.state, slot, rest, sc, failing, run);
    }
    assert HandleClient(g, slot, l + rest, sc, failing) == Step(leave.state, front + run.out + leave.out) by {
      HandleClientVia(g, slot, l + rest, sc, failing, Step(run.state, front + run.out));
    }
    Associative(front, run.out, leave.out);
  }

  lemma EmptyPrefix(s: Step)
    ensures Step(s.state, [] + s.out) == s
  {
    assert [] + s.out == s.out;
  }

  lemma Associative(a: seq<Effect>, b: seq<Effect>, c: seq<Effect>)
    ensures a + b + c == a + (b + c)
  {
  }

  /** Once the connection's own slot has been retired nothing more is read:
      a destroyed or disconnected player's further lines are never
      dispatched, and only remove_player runs, which finds nothing to do when
      the slot was the socket's sole holder. */
  lemma RetiredStopsReading(g: GameState, slot: nat, input: seq<byte>, sc: Scanner, failing: Failures)
    requires slot < MAX_CLIENTS && !g.players[slot].active
    ensures HandleClient(g, slot, input, sc, failing) == RemovePlayer(g, g.players[slot].fd, failing)
    ensures SoleHolder(g, slot) ==> HandleClient(g, slot, input, sc, failing) == Step(g, [])
  {
    RetiredOnlyLeaves(g, slot, input, sc, failing);
    if SoleHolder(g, slot) {
      SoleHolderGone(g, slot, failing);
    }
  }

  lemma RetiredOnlyLeaves(g: GameState, slot: nat, input: seq<byte>, sc: Scanner, failing: Failures)
    requires slot < MAX_CLIENTS && !g.players[slot].active
    ensures HandleClient(g, slot, input, sc, failing) == RemovePlayer(g, g.players[slot].fd, failing)
  {
    var leave := RemovePlayer(g, g.players[slot].fd, failing);
    HandleClientVia(g, slot, input, sc, failing, Step(g, []));
    EmptyPrefix(leave);
  }

  /** A retired slot that was the sole holder of its socket leaves no
      active holder, so remove_player has nothing to do. */
  lemma SoleHolderGone(g: GameState, slot: nat, failing: Failures)
    requires slot < MAX_CLIENTS && !g.players[slot].active && SoleHolder(g, slot)
    ensures RemovePlayer(g, g.players[slot].fd, failing) == Step(g, [])
  {
    var fd := g.players[slot].fd;
    assert forall k | 0 <= k < MAX_CLIENTS :: !(g.players[k].active && g.players[k].fd == fd);
  }

  /** handle_client, given what its lines did: then remove_player. */
  lemma HandleClientVia(g: GameState, slot: nat, input: seq<byte>, sc: Scanner, failing: Failures, run: Step)
    requires slot < MAX_CLIENTS
    requires RunLines(g, slot, Frame(input).lines, sc, failing) == run
    ensures var leave := RemovePlayer(run.state, g.players[slot].fd, failing);
      HandleClient(g, slot, input, sc, failing) == Step(leave.state, run.out + leave.out)
  {
  }

  /** 100 bytes without a '\n' end the connection with no reply and no line
      dispatched: all that happens is remove_player, which for a player that
      never registered is just the close of its socket. */
  lemma OverlongDisconnects(g: GameState, slot: nat, chunk: Line, rest: seq<byte>, sc: Scanner, failing: Failures)
    requires slot < MAX_CLIENTS
    requires |chunk| == MAX_MESSAGE_LENGTH && NEWLINE !in chunk
    ensures HandleClient(g, slot, chunk + rest, sc, failing) == RemovePlayer(g, g.players[slot].fd, failing)
    ensures SoleHolder(g, slot) && g.players[slot].active && !g.players[slot].registered ==>
      HandleClient(g, slot, chunk + rest, sc, failing).out == [Close(slot, g.players[slot].fd)]
  {
    FrameOverlong(chunk, rest);
    NoLinesOnlyLeaves(g, slot, chunk + rest, sc, failing);
  }

  /** A connection that closes before its first '\n' never has a line
      dispatched: the partial buffer is dropped and the player removed. */
  lemma PartialNeverDispatched(g: GameState, slot: nat, input: seq<byte>, sc: Scanner, failing: Failures)
    requires slot < MAX_CLIENTS
    requires |input| < MAX_MESSAGE_LENGTH && NEWLINE !in input
    ensures HandleClient(g, slot, input, sc, failing) == RemovePlayer(g, g.players[slot].fd, failing)
  {
    FramePartial(input);
    NoLinesOnlyLeaves(g, slot, input, sc, failing);
  }
}

=== FILE: state.dfy ===
/** The shared registry of the game (GameState, Player and Ship of server.h),
    the messages the server emits, and the invariant every operation keeps. */
module State {
  import opened Defs
  import opened Geometry

  type Name = seq<byte>

  /** The five damage flags, in cell order along the ship's axis. */
  type Flags = s: seq<bool> | |s| == SHIP_LENGTH witness [false, false, false, false, false]

  const NoDamage: Flags := [false, false, false, false, false]

  datatype Ship = Ship(owner: Name, x: int, y: int, direction: byte, damaged: Flags, totalDamage: int)

  /** One registry slot. `fd` is the connection's socket, an opaque number. */
  datatype Player = Player(fd: int, name: Name, ship: Ship, registered: bool, active: bool)

  type Slots = s: seq<Player> | |s| == MAX_CLIENTS witness seq(MAX_CLIENTS, _ => Vacant)

  datatype GameState = GameState(players: Slots, playerCount: int)

  /** Every line the server writes to a client: the three direct replies and
      the four broadcast events. */
  datatype Msg =
    | Welcome
    | Taken
    | Invalid
    | Join(name: Name)
    | Hit(attacker: Name, x: int, y: int, owner: Name)
    | Miss(attacker: Name, x: int, y: int)
    | GG(name: Name)

  /** What an operation does to the connections, in order: a line written to
      the socket of a slot, or that slot's socket closed. */
  datatype Effect = Send(slot: nat, msg: Msg) | Close(slot: nat, fd: int)

  /** Result of a registry operation: the new state and its outbox. */
  datatype Step = Step(state: GameState, out: seq<Effect>)

  /** The deliveries whose `send` reports failure: sending `m` to slot `k`
      fails exactly when `(k, m)` is in the set. */
  type Failures = set<(nat, Msg)>

  /** A slot as init_game_state leaves it: no socket, no name, zeroed ship. */
  const Vacant: Player := Player(-1, [], Ship([], 0, 0, 0, NoDamage, 0), false, false)

  function InitGameState(): (g: GameState)
    ensures Valid(g)
    ensures ActiveSet(g.players) == {}
    ensures forall k | 0 <= k < MAX_CLIENTS :: !g.players[k].registered && g.players[k].fd == -1
  {
    var g := GameState(seq(MAX_CLIENTS, _ => Vacant), 0);
    assert ActiveSet(g.players) == {};
    g
  }

  function CountTrue(flags: seq<bool>): nat {
    if |flags| == 0 then 0 else (if flags[0] then 1 else 0) + CountTrue(flags[1..])
  }

  lemma {:induction false} CountTrueBound(flags: seq<bool>)
    ensures CountTrue(flags) <= |flags|
  {
    if |flags| > 0 {
      CountTrueBound(flags[1..]);
    }
  }

  /** Setting one clear flag raises the count by exactly one. */
  lemma {:induction false} CountTrueSet(flags: seq<bool>, j: nat)
    requires j < |flags| && !flags[j]
    ensures CountTrue(flags[j := true]) == CountTrue(flags) + 1
  {
    if j > 0 {
      assert flags[j := true][1..] == flags[1..][j - 1 := true];
      CountTrueSet(flags[1..], j - 1);
    } else {
      assert flags[j := true][1..] == flags[1..];
    }
  }

  /** Under the invariant no ship has more than five hits recorded. */
  lemma DamageBounded(g: GameState)
    requires Valid(g)
    ensures forall k | 0 <= k < MAX_CLIENTS :: 0 <= g.players[k].ship.totalDamage <= SHIP_LENGTH
  {
    forall k | 0 <= k < MAX_CLIENTS
      ensures g.players[k].ship.totalDamage <= SHIP_LENGTH
    {
      CountTrueBound(g.players[k].ship.damaged);
    }
  }

  predicate InPlay(p: Player) {
    p.active && p.registered
  }

  /** total_damage counts the set damage flags. */
  predicate ShipConsistent(s: Ship) {
    s.totalDamage == CountTrue(s.damaged)
  }

  /** A registered slot's ship was placed on the board under the slot's name. */
  predicate Placed(p: Player) {
    IsValidShipPlacement(p.ship.x, p.ship.y, p.ship.direction) && p.ship.owner == p.name
  }

  function ActiveSet(s: Slots): set<nat> {
    set k: nat | k < MAX_CLIENTS && s[k].active
  }

  lemma SameActiveSet(s: Slots, t: Slots)
    requires forall k | 0 <= k < MAX_CLIENTS :: s[k].active == t[k].active
    ensures ActiveSet(s) == ActiveSet(t)
  {
  }

  /** How far player_count is off from the number of active slots. */
  function Drift(g: GameState): int {
    g.playerCount - |ActiveSet(g.players)|
  }

  predicate UniqueNames(s: Slots) {
    forall i, j | 0 <= i < MAX_CLIENTS && 0 <= j < MAX_CLIENTS && i != j && InPlay(s[i]) && InPlay(s[j]) ::
      s[i].name != s[j].name
  }

  /** Every active slot holds a real (non-negative) socket. */
  predicate SocketsOpen(g: GameState) {
    forall k | 0 <= k < MAX_CLIENTS && g.players[k].active :: g.players[k].fd >= 0
  }

  /** The registry invariant. */
  predicate Valid(g: GameState) {
    && Drift(g) == 0
    && (forall k | 0 <= k < MAX_CLIENTS :: ShipConsistent(g.players[k].ship))
    && SocketsOpen(g)
    && (forall k | 0 <= k < MAX_CLIENTS && g.players[k].registered :: Placed(g.players[k]))
    && UniqueNames(g.players)
  }

  /** The slot as it is after `is_active = 0; is_registered = 0`. */
  function Evict(p: Player): Player {
    p.(active := false, registered := false)
  }

  /** Evict slot k and decrement player_count, as every removal path does. */
  function Retire(g: GameState, k: nat): (h: GameState)
    requires k < MAX_CLIENTS
    ensures g.players[k].active ==> Drift(h) == Drift(g)
    ensures !g.players[k].active ==> Drift(h) == Drift(g) - 1
  {
    var h := g.(players := g.players[k := Evict(g.players[k])], playerCount := g.playerCount - 1);
    assert g.players[k].active ==> ActiveSet(h.players) == ActiveSet(g.players) - {k};
    assert !g.players[k].active ==> ActiveSet(h.players) == ActiveSet(g.players);
    h
  }

  /** p' is what p may become under an operation that only removes players
      and damages ships: connection, name and ship position stay, the active
      and registered flags can only be cleared, damage flags can only be set. */
  predicate Retires(p: Player, p': Player) {
    && p'.fd == p.fd
    && p'.name == p.name
    && p'.ship.owner == p.ship.owner
    && p'.ship.x == p.ship.x
    && p'.ship.y == p.ship.y
    && p'.ship.direction == p.ship.direction
    && (p'.active ==> p.active)
    && (p'.registered ==> p.registered)
    && (forall j | 0 <= j < SHIP_LENGTH :: p.ship.damaged[j] ==> p'.ship.damaged[j])
  }

  predicate AllRetire(g: GameState, h: GameState) {
    forall k | 0 <= k < MAX_CLIENTS :: Retires(g.players[k], h.players[k])
  }

  /** An operation that only retires slots and keeps ships consistent keeps
      the invariant, provided it keeps player_count in step. */
  lemma RetiringKeepsValid(g: GameState, h: GameState)
    requires Valid(g)
    requires AllRetire(g, h)
    requires forall k | 0 <= k < MAX_CLIENTS :: ShipConsistent(h.players[k].ship)
    requires Drift(h) == Drift(g)
    ensures Valid(h)
  {
    forall i, j | 0 <= i < MAX_CLIENTS && 0 <= j < MAX_CLIENTS && i != j && InPlay(h.players[i]) && InPlay(h.players[j])
      ensures h.players[i].name != h.players[j].name
    {
      assert Retires(g.players[i], h.players[i]) && Retires(g.players[j], h.players[j]);
    }
  }
}
